=== FILE: README.md ===
# Surface quadrangulation from Morse-Smale separatrices

This project models, in Dafny, the core of TTK's surface quadrangulation
(`SurfaceQuadrangulation.cpp`). It turns the critical points of a scalar field
on a triangulated surface and the separatrices joining them into quadrangles.

- **Filtering and pairing.** A run first clears its two output buffers. It
  drops the separatrix endpoint entries whose mask is 1. An odd number of
  survivors is a fatal error (status -1). Otherwise the survivors are paired
  into (source, destination) surface-cell edges.
- **Dual mode.** The model resolves both ends of each edge to a critical
  point by a first-match scan and groups the destinations by source. Each
  source with exactly four destinations emits one record `[4, i, j, k, l]`.
  Corners i and k share a type. Corners j and l share one only when the four
  destinations come two and two (`Dual.Corners4Alternates`). When no later
  destination has i's type, the record is `[4, i, i, i, i]`.
- **Direct mode.** The model builds a table from each destination to the
  set of its sources, and counts the separatrices of every critical point.
  For every pair i < k of destinations of different type, it intersects
  their source sets. With at least two common sources it emits one
  quadrangle per pair of them, j < l, that passes the common-manifold test.
  With exactly one common source, and one side having no other source, it
  emits the degenerate `[4, i, j, k, j]` and counts it.
- **Post-processing (direct mode only).** A critical point is bad when
  fewer quadrangle corner slots hold it than it has separatrices. A
  quadrangle is bad when at least two of its corner slots are bad. The four
  sides of every bad quadrangle are subdivided.
- **Subdividing a side.** The model finds the sample ranges of the
  separatrices between two critical points. Ranges already cached are
  skipped. For each new range it picks the first sample whose arc length is
  closest to half the range's length, appends that sample's three
  coordinates, and caches it.
- **Common-manifold test.** Around each given critical point, a
  breadth-first search collects segmentation ids. It stops once more than 20
  vertices are processed. The test holds iff some id is met around all of
  them.

The model is functional. The output buffers are sequences that a run
returns, and the subdivision cache is a map threaded through the passes. The
triangulation is a pair of abstract query functions (`Manifold.Mesh`), the
segmentation is a function from vertices to ids, and the distance between
two 3D points is an abstract function. Coordinates and distances are exact
reals.

Modules, one per file: `Common` (quadrangles, the cell buffer and its
decoding), `Endpoints` (mask filter and pairing), `Lookup` (cell-id
resolution), `Manifold` (capped search and intersection), `Dual`, `Pairs`
(sorted intersections and pair enumeration), `Direct`, `Middle` (side
subdivision), `Valence` (post-processing), `Quadrangulation` (a whole run).

The model follows the code where it is less regular than one might expect.
In the third corner-selection branch (lines 119-122), j is `extrema[2]` and
l is `extrema[1]`, so j and l do not come in the order the destinations were
met.

## Model

Source paths are relative to the repository root.

| member | source | states |
|---|---|---|
| Endpoints.Kept | core/base/surfaceQuadrangulation/SurfaceQuadrangulation.cpp:380-388 | the kept positions are exactly those whose mask is not 1, in increasing order |
| Endpoints.Unmasked | core/base/surfaceQuadrangulation/SurfaceQuadrangulation.cpp:380-388 | the survivors are the cell ids at the kept positions, one per kept position, in their original order |
| Endpoints.PairUp | core/base/surfaceQuadrangulation/SurfaceQuadrangulation.cpp:398-404 | an even survivor list gives half as many edges, edge t being (flat[2t], flat[2t+1]) |
| Endpoints.UnpairPairUp | core/base/surfaceQuadrangulation/SurfaceQuadrangulation.cpp:398-404 | pairing loses nothing: listing the endpoints of the edges restores the survivors |
| Endpoints.PairUpUnpair | core/base/surfaceQuadrangulation/SurfaceQuadrangulation.cpp:398-404 | conversely every edge list is the pairing of its own endpoints |
| Common.Flatten | core/base/surfaceQuadrangulation/SurfaceQuadrangulation.cpp:124-128 | the cell buffer has five entries per quadrangle, the t-th five being [4, i, j, k, l] of the t-th quadrangle |
| Common.DecodeFlatten | core/base/surfaceQuadrangulation/SurfaceQuadrangulation.cpp:124-128 | reading a written cell buffer back gives exactly the quadrangles written, in order |
| Common.FlattenDecode | core/base/surfaceQuadrangulation/SurfaceQuadrangulation.cpp:208-212 | a buffer that reads back as quadrangles is the buffer those quadrangles write |
| Common.FlattenHeads | core/base/surfaceQuadrangulation/SurfaceQuadrangulation.cpp:224-228 | every record of a written buffer starts with the vertex count 4 |
| Lookup.Resolve | core/base/surfaceQuadrangulation/SurfaceQuadrangulation.cpp:86-97 | the result is at most N; below N it has the cell id sought and no earlier critical point has it |
| Lookup.ResolveLeastMatch | core/base/surfaceQuadrangulation/SurfaceQuadrangulation.cpp:86-97 | the result is the least matching critical point, and the sentinel N exactly when none matches |
| Manifold.Explore | core/base/surfaceQuadrangulation/SurfaceQuadrangulation.cpp:26-44 | the loop keeps what it processed, processes the queue head, stops at 21 vertices, collects exactly the ids of the processed vertices, and every processed vertex is reachable from the start by a walk whose every step is a neighbour query with an index below the start vertex's neighbour count |
| Manifold.Neighbourhood | core/base/surfaceQuadrangulation/SurfaceQuadrangulation.cpp:21-45 | the search around v processes v and meets its id, processes at most 21 vertices, reaches every processed vertex from v by such a walk, when it stops below the cap every neighbour of a processed vertex is processed, and the processed set is layered: every vertex within some k steps of v and nothing beyond k + 1 steps |
| Manifold.ExploreLayers | core/base/surfaceQuadrangulation/SurfaceQuadrangulation.cpp:26-44 | a first-in first-out loop started in a breadth-first state (queue entries of the head's level, then of the next; everything nearer processed) stops with a layered processed set, whether the queue runs dry or the cap stops it |
| Manifold.LayersStep | core/base/surfaceQuadrangulation/SurfaceQuadrangulation.cpp:28-40 | popping the front and pushing the unprocessed neighbours on the back keeps queue entries ordered by level |
| Manifold.ShorterFirst | core/base/surfaceQuadrangulation/SurfaceQuadrangulation.cpp:26-44 | if the search processed u and w is within n steps of v while u is not, then w is processed too |
| Manifold.BallWalks | core/base/surfaceQuadrangulation/SurfaceQuadrangulation.cpp:33-39 | a vertex is within k layers of the start exactly when some walk of at most k neighbour queries leads to it |
| Manifold.ReachNeighbour | core/base/surfaceQuadrangulation/SurfaceQuadrangulation.cpp:34-39 | a neighbour queried from a reachable vertex is reachable: its walk extends by one step |
| Manifold.ReachableStep | core/base/surfaceQuadrangulation/SurfaceQuadrangulation.cpp:28-40 | after processing the queue head, every queued vertex, old or newly pushed, is still reachable from the start |
| Manifold.NeighbourhoodIds | core/base/surfaceQuadrangulation/SurfaceQuadrangulation.cpp:31-32 | the ids collected are exactly the segmentation ids of the processed vertices |
| Manifold.IntersectFrom | core/base/surfaceQuadrangulation/SurfaceQuadrangulation.cpp:48-57 | intersecting left to right keeps exactly the ids in the first set and in every later one |
| Manifold.Shared | core/base/surfaceQuadrangulation/SurfaceQuadrangulation.cpp:47-57 | an id survives the intersection exactly when it lies in every set |
| Manifold.SharedNonEmpty | core/base/surfaceQuadrangulation/SurfaceQuadrangulation.cpp:73 | the intersection is non-empty exactly when some id of the first set lies in all sets |
| Manifold.HasCommonManifold | core/base/surfaceQuadrangulation/SurfaceQuadrangulation.cpp:7-74 | true exactly when some id met around the first critical point is met around all of them |
| Dual.DestsOf | core/base/surfaceQuadrangulation/SurfaceQuadrangulation.cpp:85-101 | every resolved destination is a critical point or the sentinel N, and a source beyond the sentinel has none |
| Dual.GroupAt | core/base/surfaceQuadrangulation/SurfaceQuadrangulation.cpp:83-101 | the source map has an entry for s exactly when some edge resolves to source s, and the entry lists those edges' destinations in edge order |
| Dual.Corners4Selection | core/base/surfaceQuadrangulation/SurfaceQuadrangulation.cpp:104-123 | i is the first destination; when a later destination shares its type, {j, k, l} is a permutation of the other three and k has i's type; otherwise all four corners are i |
| Dual.Corners4Alternates | core/base/surfaceQuadrangulation/SurfaceQuadrangulation.cpp:110-123 | when the four destinations are two of one type and two of another, opposite corners share a type and adjacent corners differ |
| Dual.FourValent | core/base/surfaceQuadrangulation/SurfaceQuadrangulation.cpp:103-105 | the sources visited, in increasing order, are exactly those with four destinations |
| Dual.EmitFrom | core/base/surfaceQuadrangulation/SurfaceQuadrangulation.cpp:103-130 | walking the map in key order emits one quadrangle per four-destination source, in source order, each the corner selection of its destinations |
| Dual.DualQuadrangulate | core/base/surfaceQuadrangulation/SurfaceQuadrangulation.cpp:76-133 | dual mode emits exactly one quadrangle per source with exactly four destinations, in increasing source order, and none for any other source |
| Pairs.Ascending | core/base/surfaceQuadrangulation/SurfaceQuadrangulation.cpp:181-186 | a set is written out as its elements in strictly increasing order, all of them |
| Pairs.AscendingAll | core/base/surfaceQuadrangulation/SurfaceQuadrangulation.cpp:181-186 | the written-out intersection has as many entries as the set has elements |
| Pairs.PairQuads | core/base/surfaceQuadrangulation/SurfaceQuadrangulation.cpp:192-215 | the double loop emits (i, cs[a], k, cs[b]) for exactly the index pairs a < b that the test accepts |
| Pairs.PairQuadsOrdered | core/base/surfaceQuadrangulation/SurfaceQuadrangulation.cpp:192-198 | over a sorted list the pairs come out strictly increasing, so none twice |
| Pairs.PairQuadsMembers | core/base/surfaceQuadrangulation/SurfaceQuadrangulation.cpp:192-213 | over a sorted list, a quadrangle is emitted exactly when j and l are listed, j < l and the test accepts them |
| Pairs.OrderedDistinct | core/base/surfaceQuadrangulation/SurfaceQuadrangulation.cpp:167-169 | a strictly ordered list of quadrangles repeats none |
| Direct.Collect | core/base/surfaceQuadrangulation/SurfaceQuadrangulation.cpp:146-159 | after all edges, i is a source of destination x exactly when some edge runs from i's cell to x's cell; every matching critical point counts, not only the first |
| Direct.CollectSources | core/base/surfaceQuadrangulation/SurfaceQuadrangulation.cpp:141-159 | the table built edge by edge equals the declarative source table |
| Direct.MatchOne | core/base/surfaceQuadrangulation/SurfaceQuadrangulation.cpp:147-150 | with distinct cell ids, a cell id matches one critical point if present and none otherwise |
| Direct.ValenceIsIncidence | core/base/surfaceQuadrangulation/SurfaceQuadrangulation.cpp:152-154 | with distinct cell ids, a critical point's separatrix count is the number of edge ends it carries whose other end is a critical point |
| Direct.ManyShared | core/base/surfaceQuadrangulation/SurfaceQuadrangulation.cpp:180-213 | with at least two common sources, the quadrangles built from the sorted intersection are exactly the accepted non-degenerate ones for (i, k), ordered, none degenerate |
| Direct.OneShared | core/base/surfaceQuadrangulation/SurfaceQuadrangulation.cpp:214-228 | with one common source j and one side having no other source, (i, j, k, j) is the only accepted quadrangle for (i, k), and it counts as one degenerate |
| Direct.PairEmit | core/base/surfaceQuadrangulation/SurfaceQuadrangulation.cpp:164-229 | one pair (i, k) yields exactly the quadrangles (i, j, k, l) the pair rule accepts, in order, counting the degenerate one |
| Direct.RowFrom | core/base/surfaceQuadrangulation/SurfaceQuadrangulation.cpp:169-230 | the inner loop yields exactly the accepted quadrangles with first corner i and third corner from k0 up, in order |
| Direct.AllFrom | core/base/surfaceQuadrangulation/SurfaceQuadrangulation.cpp:162-231 | the two loops yield exactly the accepted quadrangles, strictly ordered, with the degenerate counter equal to the number of degenerate ones |
| Direct.Quadrangulate | core/base/surfaceQuadrangulation/SurfaceQuadrangulation.cpp:135-231 | direct mode's quadrangles are exactly those the pair rule accepts over the source table: i < k of different types; j, l common sources with j < l passing the manifold test, or j = l the only common source with one side single-sourced; none repeated; ndegen counts the degenerate ones |
| Valence.QuadValenceCounts | core/base/surfaceQuadrangulation/SurfaceQuadrangulation.cpp:237-244 | a critical point's quadrangle count is its number of occurrences among all corner slots, a degenerate quadrangle counting j twice |
| Valence.BadPoints | core/base/surfaceQuadrangulation/SurfaceQuadrangulation.cpp:246-254 | the bad points, in increasing order, are exactly those whose quadrangle count is below their separatrix count |
| Valence.BadCountSlots | core/base/surfaceQuadrangulation/SurfaceQuadrangulation.cpp:259-265 | the bad count of a quadrangle is the number of its corner slots holding a bad point |
| Valence.DegenerateBadSaddle | core/base/surfaceQuadrangulation/SurfaceQuadrangulation.cpp:259-268 | a degenerate quadrangle whose repeated saddle is bad is a bad quadrangle |
| Valence.BadQuads | core/base/surfaceQuadrangulation/SurfaceQuadrangulation.cpp:256-271 | the bad quadrangles, by increasing index, are exactly those with at least two bad corner slots |
| Valence.AllRangesMembers | core/base/surfaceQuadrangulation/SurfaceQuadrangulation.cpp:284-294 | a range is subdivided in the pass exactly when it lies along a side of one of the listed quadrangles |
| Valence.SubdivideSidesPass | core/base/surfaceQuadrangulation/SurfaceQuadrangulation.cpp:290-293 | the four middle-finder calls j-i, j-k, l-i, l-k of one quadrangle are one subdivision pass over its side ranges |
| Valence.SubdivideQuadsPass | core/base/surfaceQuadrangulation/SurfaceQuadrangulation.cpp:284-294 | the per-quadrangle loop is one subdivision pass over the side ranges of all bad quadrangles in order |
| Valence.BadRangesMembers | core/base/surfaceQuadrangulation/SurfaceQuadrangulation.cpp:256-294 | a range is subdivided exactly when it lies along a quadrangle with at least two bad corner slots |
| Valence.PostProcess | core/base/surfaceQuadrangulation/SurfaceQuadrangulation.cpp:233-294 | starting from an empty cache, the cache ends up holding exactly the ranges along bad quadrangles, each mapped to its middle sample, and the points are exactly the middle samples of the ranges the pass meets, each range once, in the order first met |
| Valence.FreshBadRanges | core/base/surfaceQuadrangulation/SurfaceQuadrangulation.cpp:256-294 | the ranges the post-processing subdivides are exactly the ranges along quadrangles with at least two bad corner slots, none twice |
| Middle.ScanReadsPastEnd | core/base/surfaceQuadrangulation/SurfaceQuadrangulation.cpp:308-310 | as written, a scan over a non-empty list reads index n of a list of n entries |
| Middle.Consecutive | core/base/surfaceQuadrangulation/SurfaceQuadrangulation.cpp:308-310 | the corrected scan reads every consecutive pair (i, i + 1) with both indices inside the list, n - 1 of them |
| Middle.Select | core/base/surfaceQuadrangulation/SurfaceQuadrangulation.cpp:309-314 | a bound (a, b) is collected exactly when some read pair finds cell c1 at sample a and then cell c2 at sample b |
| Middle.Bounds | core/base/surfaceQuadrangulation/SurfaceQuadrangulation.cpp:306-315 | the bounds from c1 to c2 are exactly the (a, b) where some entry is cell c1 at sample a and the next entry is cell c2 at sample b |
| Middle.BoundsOrdered | core/base/surfaceQuadrangulation/SurfaceQuadrangulation.cpp:273-280 | over the filtered positions, every bound has a < b below the sample count |
| Middle.FirstMin | core/base/surfaceQuadrangulation/SurfaceQuadrangulation.cpp:352-353 | the index found holds a minimum and every earlier entry is strictly larger |
| Middle.MiddleOf | core/base/surfaceQuadrangulation/SurfaceQuadrangulation.cpp:329-353 | the middle of [a, b] is the first sample of the range whose arc length is closest to half the range's length (`Middle.IsMiddle`) |
| Middle.MiddleUnique | core/base/surfaceQuadrangulation/SurfaceQuadrangulation.cpp:348-353 | no other sample has that property: any first sample of least deviation is the one the scan picks |
| Middle.SubdivideRange | core/base/surfaceQuadrangulation/SurfaceQuadrangulation.cpp:323-361 | a cached range leaves the state alone; a new range adds exactly its key, changes no cached middle, caches a sample that is the first of least deviation, and appends that sample's three coordinates |
| Middle.SubdivideRangeKeeps | core/base/surfaceQuadrangulation/SurfaceQuadrangulation.cpp:323-361 | one range adds exactly that key, changes no cached middle, only appends points, and keeps the cache correct and one point per key |
| Middle.Fresh | core/base/surfaceQuadrangulation/SurfaceQuadrangulation.cpp:323-327 | the ranges a pass subdivides are exactly those in the pass that were not cached before it, each listed once |
| Middle.SamplesBlock | core/base/surfaceQuadrangulation/SurfaceQuadrangulation.cpp:356-361 | the t-th appended point is the three coordinates of the middle sample of the t-th subdivided range |
| Middle.SamplesCover | core/base/surfaceQuadrangulation/SurfaceQuadrangulation.cpp:356-361 | the middle sample of every subdivided range is one of the appended points |
| Middle.SubdivideAll | core/base/surfaceQuadrangulation/SurfaceQuadrangulation.cpp:319-362 | a pass caches exactly the old keys and the given ranges, changes no cached middle, only appends points, and keeps the cache correct and one point per key |
| Middle.SubdivideAllPoints | core/base/surfaceQuadrangulation/SurfaceQuadrangulation.cpp:319-362 | a pass appends exactly the middle samples of the ranges not cached before it, each once, in the order the pass meets them |
| Middle.SubdivideAllCached | core/base/surfaceQuadrangulation/SurfaceQuadrangulation.cpp:324-327 | a pass over ranges that are all cached changes nothing |
| Middle.SubdivideAllAppend | core/base/surfaceQuadrangulation/SurfaceQuadrangulation.cpp:319-362 | a pass over a + b is a pass over a followed by a pass over b |
| Middle.SubdivideAllIdempotent | core/base/surfaceQuadrangulation/SurfaceQuadrangulation.cpp:323-327 | a second identical pass leaves the state as the first pass left it |
| Middle.FindSeparatrixMiddle | core/base/surfaceQuadrangulation/SurfaceQuadrangulation.cpp:299-365 | subdividing from src to dst caches exactly the old keys and the bounds between them, changes no cached middle, only appends points, and keeps the cache correct and one point per key |
| Middle.SeparatrixMiddlePoints | core/base/surfaceQuadrangulation/SurfaceQuadrangulation.cpp:299-365 | the middle finder appends exactly the middle samples of the bounds from src to dst not cached before, each once, in scan order |
| Quadrangulation.QuadsBelow | core/base/surfaceQuadrangulation/SurfaceQuadrangulation.cpp:239-244 | every corner of a direct-mode quadrangle is a critical point, so the corner counts index inside the table |
| Quadrangulation.PointsAreMiddles | core/base/surfaceQuadrangulation/SurfaceQuadrangulation.cpp:356-361 | every point block of direct mode is the middle sample of a range along a bad quadrangle |
| Quadrangulation.MiddlesArePoints | core/base/surfaceQuadrangulation/SurfaceQuadrangulation.cpp:284-294 | conversely the middle sample of every range along a bad quadrangle is a point block, and there are exactly three coordinates per such range |
| Quadrangulation.RunDual | core/base/surfaceQuadrangulation/SurfaceQuadrangulation.cpp:409-410 | dual mode's buffer reads back as one corner selection per four-destination source, in source order, with no points |
| Quadrangulation.RunDirect | core/base/surfaceQuadrangulation/SurfaceQuadrangulation.cpp:411-414 | direct mode's buffer reads back as exactly the accepted quadrangles, ordered, with valid corners and the degenerate count; its points are the middle samples of the ranges along bad quadrangles, each range once, in post-processing order |
| Quadrangulation.Execute | core/base/surfaceQuadrangulation/SurfaceQuadrangulation.cpp:368-446 | status -1 exactly when an odd number of entries survive the mask, with both buffers empty; otherwise status 0 and the chosen mode's result, in direct mode including the exact point buffer |

## Left out

- The VTK filter around the core (`ttkCellDataSelector.h` and the rest of
  the VTK layer) is not part of this model: it is pipeline glue.
- Floating point: coordinates, distances and the arc-length accumulation are
  exact reals, so float rounding and ties that rounding would break differently
  are not modelled. `ttk::Geometry::distance` is an abstract parameter.
- The triangulation's neighbour queries are total abstract functions. Their
  internals and any out-of-range vertex ids are not modelled.
- Manifold.Explore: the search asks every vertex for as many neighbours as
  the start vertex has (line 33). At line 36 it therefore asks
  `getVertexNeighbor(curr, j)` with j at or above curr's own neighbour
  count. The model's total `Mesh.neighbor` answers such calls with some
  vertex, where the triangulation's answer is not part of this model.
- Manifold.Neighbourhood: when the cap stops the search, the contract says
  the processed set is layered (everything within k steps, nothing beyond
  k + 1). Which vertices of layer k + 1 make it in depends on the neighbour
  query order. Only the function's own first-in first-out loop fixes that
  choice, and no separate reference definition is stated for it.
- Logging (`dMsg`, string streams, lines 59-71, 391-394, 430-443) and the
  `Timer` are left out; they only print.
- The manifold count and quad count (lines 416-428) are left out: they are
  computed only to be printed. The degenerate counter is kept in the outcome
  (`Quadrangulation.Outcome.degenerate`), though the source only prints it.
- Integer widths: `SimplexId` and `size_t` counters are unbounded integers;
  no overflow is modelled, since the counters are bounded by the input sizes.
- Direct.Quadrangulate: requires that every destination joined to a source
  be below the number of edges (`Direct.SlotsSuffice`). The source table is
  sized by the edge count (line 141) but indexed by critical point (line
  151), and an index beyond it is undefined behaviour in the source.
- Dual.DualQuadrangulate: requires that every type read made by the corner
  selection lie inside the type table (`Dual.WellDefined`). An unmatched
  cell id resolves to the sentinel N, and reading the type of N is undefined
  behaviour in the source. The sentinel can still appear in a record at a
  position whose type is never read; the model keeps it there, as the
  source does.
- Manifold.HasCommonManifold is stated for any non-empty list of critical
  points; the source only calls it on pairs (j, l), and never on an empty
  list (where it would read element 0 of an empty vector).
- Running a whole run twice is not modelled separately: the outputs are
  cleared at the start (lines 377-378), and the model is a pure function of
  its input, so the second run gives the same outcome.

## Findings

| source | as written | input that shows it | evidently intended | confidence | as-written member | corrected member |
|---|---|---|---|---|---|---|
| core/base/surfaceQuadrangulation/SurfaceQuadrangulation.cpp:308-310 | the bounds scan runs i over every filtered entry and reads entry i + 1 | any run whose post-processing subdivides a side with n ≥ 1 filtered entries: at i = n - 1 the scan reads entry n, past the end of the vector | scan i only while i + 1 is an entry, so each consecutive pair of entries is examined once | not executed | Middle.ScanReadsPastEnd | Middle.Consecutive |

`Middle.ConsecutiveAsWritten` lists the pairs the loop reads as written, and
`Middle.ScanReadsPastEnd` shows that the last of them reaches index n.
`Middle.Consecutive` is the corrected scan. It is proved to read only
in-range pairs, and `Middle.Bounds` (hence the whole post-processing) is
built on it.

=== FILE: common.dfy ===
/** Shared vocabulary of the surface quadrangulation: the critical-point
    table, quadrangles, and the flat cell buffer quadrangles are written to. */
module Common {

  datatype Option<T> = None | Some(value: T)

  /** No entry of the list occurs twice. */
  predicate Distinct<T(==)>(s: seq<T>)
  {
    forall a, b :: 0 <= a < b < |s| ==> s[a] != s[b]
  }

  /** A non-empty set has an element. */
  lemma Pick<T>(s: set<T>) returns (x: T)
    requires s != {}
    ensures x in s
  {
    if forall y :: y !in s {
      assert false;
    }
    x :| x in s;
  }

  /** Strictly increasing sequences of naturals. */
  predicate Increasing(s: seq<nat>)
  {
    forall a, b :: 0 <= a < b < |s| ==> s[a] < s[b]
  }

  /** The critical-point table, indexed by critical-point identifier: the
      domain vertex of each point, its surface cell id, and its type tag
      (0 minimum, 1 saddle, 2 maximum). */
  datatype CriticalPoints = CriticalPoints(vertex: seq<nat>, cell: seq<int>, kind: seq<int>)
  {
    predicate Valid()
    {
      |vertex| == |cell| && |cell| == |kind|
    }

    function Count(): nat
    {
      |cell|
    }
  }

  /** A quadrangle (i, j, k, l): i and k are opposite corners, and so are
      j and l. A degenerate quadrangle has j == l. */
  datatype Quad = Quad(i: nat, j: nat, k: nat, l: nat)
  {
    predicate Degenerate()
    {
      j == l
    }

    function Corners(): seq<nat>
    {
      [i, j, k, l]
    }

    predicate Below(n: nat)
    {
      i < n && j < n && k < n && l < n
    }
  }

  /** Number of vertices heading every record of the cell buffer. */
  const QuadSize: int := 4

  /** The five-entry record of one quadrangle in the cell buffer. */
  function Record(q: Quad): seq<int>
  {
    [QuadSize, q.i, q.j, q.k, q.l]
  }

  /** The cell buffer holding the given quadrangles, in order. */
  function Flatten(qs: seq<Quad>): (cells: seq<int>)
    ensures |cells| == 5 * |qs|
    ensures forall t :: 0 <= t < |qs| ==> cells[5 * t..5 * t + 5] == Record(qs[t])
  {
    if |qs| == 0 then []
    else
      var front := Flatten(qs[..|qs| - 1]);
      assert forall t :: 0 <= t < |qs| - 1 ==> qs[..|qs| - 1][t] == qs[t];
      front + Record(qs[|qs| - 1])
  }

  /** Reads one record back; None unless it is [4, i, j, k, l] with
      non-negative ids. */
  function DecodeRecord(r: seq<int>): (q: Option<Quad>)
    requires |r| == 5
    ensures q.Some? ==> Record(q.value) == r
    ensures q.None? ==> r[0] != QuadSize || r[1] < 0 || r[2] < 0 || r[3] < 0 || r[4] < 0
  {
    if r[0] == QuadSize && r[1] >= 0 && r[2] >= 0 && r[3] >= 0 && r[4] >= 0
    then Some(Quad(r[1], r[2], r[3], r[4]))
    else None
  }

  /** One record reads back as the quadrangle written. */
  lemma RecordRoundTrip(q: Quad)
    ensures DecodeRecord(Record(q)) == Some(q)
  {
  }

  /** Reads a whole cell buffer back into quadrangles. */
  function Decode(cells: seq<int>): Option<seq<Quad>>
  {
    if |cells| == 0 then Some([])
    else if |cells| < 5 then None
    else
      match Decode(cells[..|cells| - 5])
      case None => None
      case Some(front) =>
        match DecodeRecord(cells[|cells| - 5..])
        case None => None
        case Some(q) => Some(front + [q])
  }

  /** Appending one record to a buffer that reads back appends its
      quadrangle. */
  lemma DecodeSnoc(front: seq<int>, fq: seq<Quad>, q: Quad)
    requires Decode(front) == Some(fq)
    ensures Decode(front + Record(q)) == Some(fq + [q])
  {
    var cells := front + Record(q);
    assert cells[..|cells| - 5] == front;
    assert cells[|cells| - 5..] == Record(q);
    RecordRoundTrip(q);
  }

  /** Reading the buffer back gives exactly the quadrangles written. */
  lemma {:induction false} DecodeFlatten(qs: seq<Quad>)
    ensures Decode(Flatten(qs)) == Some(qs)
  {
    if |qs| > 0 {
      var n := |qs| - 1;
      DecodeFlatten(qs[..n]);
      assert Flatten(qs) == Flatten(qs[..n]) + Record(qs[n]);
      DecodeSnoc(Flatten(qs[..n]), qs[..n], qs[n]);
      assert qs[..n] + [qs[n]] == qs;
    }
  }

  /** Writing one more quadrangle appends its record. */
  lemma FlattenSnoc(front: seq<Quad>, q: Quad)
    ensures Flatten(front + [q]) == Flatten(front) + Record(q)
  {
    assert (front + [q])[..|front|] == front;
  }

  /** Conversely, a buffer that decodes is the flattening of what it decodes to. */
  lemma {:induction false} FlattenDecode(cells: seq<int>, qs: seq<Quad>)
    requires Decode(cells) == Some(qs)
    ensures Flatten(qs) == cells
    decreases |cells|
  {
    if |cells| > 0 {
      var prefix := cells[..|cells| - 5];
      var last := cells[|cells| - 5..];
      assert Decode(prefix).Some? && DecodeRecord(last).Some?;
      var front := Decode(prefix).value;
      var q := DecodeRecord(last).value;
      assert qs == front + [q];
      FlattenDecode(prefix, front);
      FlattenSnoc(front, q);
      assert cells == prefix + last;
    }
  }

  /** Every record of a flattened buffer starts with the vertex count 4. */
  lemma FlattenHeads(qs: seq<Quad>)
    ensures forall t :: 0 <= t < |qs| ==> Flatten(qs)[5 * t] == QuadSize
  {
    var cells := Flatten(qs);
    forall t | 0 <= t < |qs|
      ensures cells[5 * t] == QuadSize
    {
      assert cells[5 * t..5 * t + 5] == Record(qs[t]);
      assert cells[5 * t] == cells[5 * t..5 * t + 5][0];
    }
  }

  /** The corner slots of all quadrangles, four per quadrangle, in order. */
  function Corners(qs: seq<Quad>): (cs: seq<nat>)
    ensures |cs| == 4 * |qs|
  {
    if |qs| == 0 then [] else Corners(qs[..|qs| - 1]) + qs[|qs| - 1].Corners()
  }

  /** Number of degenerate quadrangles in qs. */
  function DegenerateCount(qs: seq<Quad>): nat
  {
    if |qs| == 0 then 0
    else DegenerateCount(qs[..|qs| - 1]) + (if qs[|qs| - 1].Degenerate() then 1 else 0)
  }

  lemma {:induction false} DegenerateCountAppend(a: seq<Quad>, b: seq<Quad>)
    ensures DegenerateCount(a + b) == DegenerateCount(a) + DegenerateCount(b)
    decreases |b|
  {
    if |b| > 0 {
      assert (a + b)[..|a + b| - 1] == a + b[..|b| - 1];
      DegenerateCountAppend(a, b[..|b| - 1]);
    } else {
      assert a + b == a;
    }
  }
}

=== FILE: direct.dfy ===
/** Direct quadrangulation: quadrangles (i, j, k, l) whose opposite corners
    i, k are extrema of different types reached by separatrices from the two
    saddles j and l, plus degenerate quadrangles (i, j, k, j) where only one
    saddle is shared. */
module Direct {
  import opened Common
  import opened Lookup
  import opened Endpoints
  import opened Pairs
  import opened Manifold

  /** Some separatrix edge runs from the cell of critical point i to the
      cell of critical point x. Every critical point whose cell id matches
      an end counts, not only the first. */
  predicate Joins(cells: seq<int>, edges: seq<Edge>, i: nat, x: nat)
  {
    i < |cells| && x < |cells| && exists t :: 0 <= t < |edges| && edges[t] == (cells[i], cells[x])
  }

  /** The source table has one slot per edge, so every destination that is
      joined to a source must be an identifier below the number of edges. */
  ghost predicate SlotsSuffice(cells: seq<int>, edges: seq<Edge>)
  {
    forall i: nat, x: nat :: Joins(cells, edges, i, x) ==> x < |edges|
  }

  /** The table after all edges: for each destination slot the set of its
      sources, and for each critical point its number of separatrices. */
  datatype Tally = Tally(sources: seq<set<nat>>, valence: seq<nat>)

  /** The effect of one edge: every critical point matching its source cell
      becomes a source of every critical point matching its destination
      cell, and each matched (source, destination) pair adds one to the
      valence of both. */
  function AddEdge(cells: seq<int>, t: Tally, e: Edge): (r: Tally)
    requires |t.valence| == |cells|
    ensures |r.sources| == |t.sources| && |r.valence| == |cells|
  {
    var from := MatchSet(cells, e.0);
    var to := MatchSet(cells, e.1);
    Tally(
      seq(|t.sources|, x requires 0 <= x < |t.sources| =>
            if x < |cells| && cells[x] == e.1 then t.sources[x] + from else t.sources[x]),
      seq(|cells|, x requires 0 <= x < |cells| =>
            t.valence[x] + (if cells[x] == e.1 then |from| else 0) + (if cells[x] == e.0 then |to| else 0)))
  }

  /** The table after the given edges, over the given number of slots. */
  function Collect(cells: seq<int>, edges: seq<Edge>, slots: nat): (r: Tally)
    ensures |r.sources| == slots && |r.valence| == |cells|
    ensures forall x, i :: 0 <= x < slots ==> (i in r.sources[x] <==> Joins(cells, edges, i, x))
  {
    if |edges| == 0 then Tally(seq(slots, _ => {}), seq(|cells|, _ => 0))
    else
      var front := edges[..|edges| - 1];
      var e := edges[|edges| - 1];
      var prev := Collect(cells, front, slots);
      assert forall i: nat, x: nat :: Joins(cells, edges, i, x) <==>
               Joins(cells, front, i, x) || (i < |cells| && x < |cells| && e == (cells[i], cells[x])) by {
        forall i: nat, x: nat
          ensures Joins(cells, edges, i, x) <==>
                    Joins(cells, front, i, x) || (i < |cells| && x < |cells| && e == (cells[i], cells[x]))
        {
          if Joins(cells, front, i, x) {
            var t :| 0 <= t < |front| && front[t] == (cells[i], cells[x]);
            assert edges[t] == front[t];
          }
          if Joins(cells, edges, i, x) && !(e == (cells[i], cells[x])) {
            var t :| 0 <= t < |edges| && edges[t] == (cells[i], cells[x]);
            assert front[t] == edges[t];
          }
          if i < |cells| && x < |cells| && e == (cells[i], cells[x]) {
            assert edges[|edges| - 1] == e;
          }
        }
      }
      AddEdge(cells, prev, e)
  }

  /** The declarative source table: slot x holds every critical point that
      some edge joins to x. */
  function SourceTable(cells: seq<int>, edges: seq<Edge>): (table: seq<set<nat>>)
    ensures |table| == |edges|
  {
    seq(|edges|, x requires 0 <= x < |edges| => set i: nat | i < |cells| && Joins(cells, edges, i, x))
  }

  /** Building the table edge by edge gives the declarative one. */
  lemma CollectSources(cells: seq<int>, edges: seq<Edge>)
    ensures Collect(cells, edges, |edges|).sources == SourceTable(cells, edges)
  {
    var a := Collect(cells, edges, |edges|).sources;
    var b := SourceTable(cells, edges);
    forall x | 0 <= x < |edges|
      ensures a[x] == b[x]
    {
      assert forall i :: i in a[x] <==> i in b[x];
    }
  }

  /** With distinct cell ids a cell id matches one critical point or none. */
  lemma MatchOne(cells: seq<int>, c: int)
    requires Distinct(cells)
    ensures |MatchSet(cells, c)| == if c in cells then 1 else 0
  {
    if c in cells {
      var p :| 0 <= p < |cells| && cells[p] == c;
      assert MatchSet(cells, c) == {p};
    } else {
      assert MatchSet(cells, c) == {};
    }
  }

  /** Number of edges with x at one end and a critical point at the other,
      counting an edge from x to x twice. */
  function Incidence(cells: seq<int>, edges: seq<Edge>, x: nat): nat
    requires x < |cells|
  {
    if |edges| == 0 then 0
    else
      var e := edges[|edges| - 1];
      Incidence(cells, edges[..|edges| - 1], x)
        + (if cells[x] == e.1 && e.0 in cells then 1 else 0)
        + (if cells[x] == e.0 && e.1 in cells then 1 else 0)
  }

  /** When cell ids are distinct, the valence of a critical point is the
      number of separatrix ends it carries whose other end is a critical
      point. */
  lemma {:induction false} ValenceIsIncidence(cells: seq<int>, edges: seq<Edge>, slots: nat, x: nat)
    requires Distinct(cells) && x < |cells|
    ensures Collect(cells, edges, slots).valence[x] == Incidence(cells, edges, x)
  {
    if |edges| > 0 {
      var e := edges[|edges| - 1];
      ValenceIsIncidence(cells, edges[..|edges| - 1], slots, x);
      MatchOne(cells, e.0);
      MatchOne(cells, e.1);
    }
  }

  /** Slots hold identifiers below n, and only slots below n are filled. */
  predicate Shaped(sources: seq<set<nat>>, n: nat)
  {
    forall x :: 0 <= x < |sources| ==>
      (sources[x] != {} ==> x < n) && (forall i :: i in sources[x] ==> i < n)
  }

  /** Quadrangles of one pass, and how many of them the pass counted as
      degenerate. */
  datatype Batch = Batch(quads: seq<Quad>, degenerate: nat)

  function Join(a: Batch, b: Batch): Batch
  {
    Batch(a.quads + b.quads, a.degenerate + b.degenerate)
  }

  /** The quadrangles the pair (i, k) of destination slots yields:
      i, k non-empty and of different types; with at least two common
      sources j < l every pair that ok accepts; with exactly one common
      source j, and one of i, k having no other source, the degenerate
      (i, j, k, j). */
  predicate PairQuad(sources: seq<set<nat>>, kind: seq<int>, ok: (nat, nat) -> bool, q: Quad)
    requires Shaped(sources, |kind|)
  {
    && q.i < q.k < |sources|
    && sources[q.i] != {} && sources[q.k] != {}
    && kind[q.k] != kind[q.i]
    && var common := sources[q.i] * sources[q.k];
       || (|common| >= 2 && q.j in common && q.l in common && q.j < q.l && ok(q.j, q.l))
       || (|common| == 1 && (|sources[q.i]| == 1 || |sources[q.k]| == 1) && q.j == q.l && q.j in common)
  }

  /** A list with no degenerate quadrangle counts zero of them. */
  lemma {:induction false} NoDegenerate(qs: seq<Quad>)
    requires forall q :: q in qs ==> !q.Degenerate()
    ensures DegenerateCount(qs) == 0
  {
    if |qs| > 0 {
      assert qs[|qs| - 1] in qs;
      NoDegenerate(qs[..|qs| - 1]);
    }
  }

  /** With at least two common sources, the pairs of the sorted common
      sources are exactly the non-degenerate quadrangles of (i, k). */
  lemma ManyShared(sources: seq<set<nat>>, kind: seq<int>, ok: (nat, nat) -> bool, i: nat, k: nat)
    requires Shaped(sources, |kind|) && i < k < |sources|
    requires sources[i] != {} && sources[k] != {} && kind[k] != kind[i]
    requires |sources[i] * sources[k]| >= 2
    ensures var common := Ascending(sources[i] * sources[k], |kind|);
            && |common| == |sources[i] * sources[k]|
            && var qs := PairQuads(i, k, common, 0, ok);
               && (forall q :: q in qs <==> q.i == i && q.k == k && PairQuad(sources, kind, ok, q))
               && Ordered(qs)
               && DegenerateCount(qs) == 0
  {
    var shared := sources[i] * sources[k];
    var common := Ascending(shared, |kind|);
    AscendingAll(shared, |kind|);
    var qs := PairQuads(i, k, common, 0, ok);
    PairQuadsOrdered(i, k, common, 0, ok);
    forall q
      ensures q in qs <==> q.i == i && q.k == k && PairQuad(sources, kind, ok, q)
    {
      PairQuadsMembers(i, k, common, ok, q);
    }
    NoDegenerate(qs);
  }

  /** With exactly one common source j, and one side having no other
      source, the degenerate (i, j, k, j) is the only quadrangle of (i, k). */
  lemma OneShared(sources: seq<set<nat>>, kind: seq<int>, ok: (nat, nat) -> bool, i: nat, k: nat, j: nat)
    requires Shaped(sources, |kind|) && i < k < |sources|
    requires sources[i] != {} && sources[k] != {} && kind[k] != kind[i]
    requires |sources[i] * sources[k]| == 1 && (|sources[i]| == 1 || |sources[k]| == 1)
    requires j in sources[i] * sources[k]
    ensures forall q :: q in [Quad(i, j, k, j)] <==> q.i == i && q.k == k && PairQuad(sources, kind, ok, q)
    ensures DegenerateCount([Quad(i, j, k, j)]) == 1
  {
    var shared := sources[i] * sources[k];
    assert shared == {j} by {
      assert {j} <= shared;
      assert shared - {j} == {} by {
        assert |shared - {j}| == 0;
      }
    }
    assert DegenerateCount([Quad(i, j, k, j)]) == DegenerateCount([]) + 1 by {
      assert [Quad(i, j, k, j)][..0] == [];
    }
  }

  /** One pair of destination slots. */
  function PairEmit(sources: seq<set<nat>>, kind: seq<int>, ok: (nat, nat) -> bool, i: nat, k: nat): (r: Batch)
    requires Shaped(sources, |kind|) && i < k < |sources|
    ensures forall q :: q in r.quads <==> q.i == i && q.k == k && PairQuad(sources, kind, ok, q)
    ensures Ordered(r.quads)
    ensures r.degenerate == DegenerateCount(r.quads)
  {
    if sources[i] == {} || sources[k] == {} || kind[k] == kind[i] then Batch([], 0)
    else
      var shared := sources[i] * sources[k];
      var common := Ascending(shared, |kind|);
      AscendingAll(shared, |kind|);
      if |common| >= 2 then
        ManyShared(sources, kind, ok, i, k);
        Batch(PairQuads(i, k, common, 0, ok), 0)
      else if |common| == 1 && (|sources[i]| == 1 || |sources[k]| == 1) then
        var j := common[0];
        OneShared(sources, kind, ok, i, k, j);
        Batch([Quad(i, j, k, j)], 1)
      else Batch([], 0)
  }

  /** The pairs (i, k) for k from k0 up, in increasing order of k. */
  function RowFrom(sources: seq<set<nat>>, kind: seq<int>, ok: (nat, nat) -> bool, i: nat, k0: nat): (r: Batch)
    requires Shaped(sources, |kind|) && i < k0 <= |sources|
    ensures forall q :: q in r.quads <==> q.i == i && k0 <= q.k && PairQuad(sources, kind, ok, q)
    ensures Ordered(r.quads)
    ensures r.degenerate == DegenerateCount(r.quads)
    decreases |sources| - k0
  {
    if k0 == |sources| then Batch([], 0)
    else
      var head := PairEmit(sources, kind, ok, i, k0);
      var rest := RowFrom(sources, kind, ok, i, k0 + 1);
      OrderedConcat(head.quads, rest.quads);
      DegenerateCountAppend(head.quads, rest.quads);
      Join(head, rest)
  }

  /** All pairs (i, k), i from i0 up and k above i: the two nested loops
      over the destination slots. */
  function AllFrom(sources: seq<set<nat>>, kind: seq<int>, ok: (nat, nat) -> bool, i0: nat): (r: Batch)
    requires Shaped(sources, |kind|) && i0 <= |sources|
    ensures forall q :: q in r.quads <==> i0 <= q.i && PairQuad(sources, kind, ok, q)
    ensures Ordered(r.quads)
    ensures r.degenerate == DegenerateCount(r.quads)
    decreases |sources| - i0
  {
    if i0 == |sources| then Batch([], 0)
    else
      var head := RowFrom(sources, kind, ok, i0, i0 + 1);
      var rest := AllFrom(sources, kind, ok, i0 + 1);
      OrderedConcat(head.quads, rest.quads);
      DegenerateCountAppend(head.quads, rest.quads);
      Join(head, rest)
  }

  /** The shared-manifold test on the pair of saddles (j, l). */
  function Linked(cp: CriticalPoints, mesh: Mesh, seg: nat -> int): (nat, nat) -> bool
  {
    (j: nat, l: nat) => cp.Valid() && j < cp.Count() && l < cp.Count() && HasCommonManifold(cp, mesh, seg, [j, l])
  }

  /** qs holds exactly the quadrangles the pair rule accepts. */
  ghost predicate Accepted(sources: seq<set<nat>>, kind: seq<int>, ok: (nat, nat) -> bool, qs: seq<Quad>)
    requires Shaped(sources, |kind|)
  {
    forall q :: q in qs <==> PairQuad(sources, kind, ok, q)
  }

  /** Direct mode: the quadrangles, in loop order with none repeated, the
      degenerate counter, and the tally the post-processing reads. */
  datatype Direct = Direct(batch: Batch, tally: Tally)

  function Quadrangulate(cp: CriticalPoints, mesh: Mesh, seg: nat -> int, edges: seq<Edge>): (r: Direct)
    requires cp.Valid() && SlotsSuffice(cp.cell, edges)
    ensures r.tally == Collect(cp.cell, edges, |edges|)
    ensures Shaped(SourceTable(cp.cell, edges), |cp.kind|)
    ensures Accepted(SourceTable(cp.cell, edges), cp.kind, Linked(cp, mesh, seg), r.batch.quads)
    ensures Ordered(r.batch.quads)
    ensures r.batch.degenerate == DegenerateCount(r.batch.quads)
  {
    var tally := Collect(cp.cell, edges, |edges|);
    CollectSources(cp.cell, edges);
    assert Shaped(tally.sources, |cp.kind|) by {
      forall x | 0 <= x < |tally.sources|
        ensures (tally.sources[x] != {} ==> x < |cp.kind|) && (forall i :: i in tally.sources[x] ==> i < |cp.kind|)
      {
        if tally.sources[x] != {} {
          var i := Pick(tally.sources[x]);
        }
      }
    }
    Direct(AllFrom(tally.sources, cp.kind, Linked(cp, mesh, seg), 0), tally)
  }
}

=== FILE: dual.dfy ===
/** Dual quadrangulation: one quadrangle of extrema around every source
    critical point that has exactly four separatrix destinations. */
module Dual {
  import opened Common
  import opened Lookup
  import opened Endpoints

  /** Destinations, in edge order, of the edges whose source resolves to s;
      both ends are resolved by first match. */
  function DestsOf(cells: seq<int>, edges: seq<Edge>, s: nat): (ds: seq<nat>)
    ensures forall t :: 0 <= t < |ds| ==> ds[t] <= |cells|
    ensures s > |cells| ==> ds == []
  {
    if |edges| == 0 then []
    else
      var e := edges[|edges| - 1];
      DestsOf(cells, edges[..|edges| - 1], s)
        + (if Resolve(cells, e.0) == s then [Resolve(cells, e.1)] else [])
  }

  /** The source -> destinations map, built one edge at a time: a source
      gets an entry the first time one of its edges is seen, and each edge
      appends its destination to its source's entry. */
  function Group(cells: seq<int>, edges: seq<Edge>): (g: map<nat, seq<nat>>)
  {
    if |edges| == 0 then map[]
    else
      var g0 := Group(cells, edges[..|edges| - 1]);
      var e := edges[|edges| - 1];
      var src := Resolve(cells, e.0);
      g0[src := (if src in g0 then g0[src] else []) + [Resolve(cells, e.1)]]
  }

  /** The map has an entry for s exactly when some edge resolves to source
      s, and that entry lists the destinations of those edges in edge
      order. */
  lemma {:induction false} GroupAt(cells: seq<int>, edges: seq<Edge>, s: nat)
    ensures s in Group(cells, edges) <==> DestsOf(cells, edges, s) != []
    ensures s in Group(cells, edges) ==> Group(cells, edges)[s] == DestsOf(cells, edges, s)
    decreases |edges|
  {
    if |edges| > 0 {
      GroupAt(cells, edges[..|edges| - 1], s);
    }
  }

  /** The type reads the corner selection makes are all inside the table:
      always those of ext[0] and ext[1], that of ext[2] only when ext[1]
      differs in type from ext[0], and that of ext[3] only when ext[2]
      differs too. */
  predicate ReadsDefined(kind: seq<int>, ext: seq<nat>)
    requires |ext| == 4
  {
    && ext[0] < |kind| && ext[1] < |kind|
    && (kind[ext[1]] != kind[ext[0]] ==>
          ext[2] < |kind| && (kind[ext[2]] != kind[ext[0]] ==> ext[3] < |kind|))
  }

  /** Some later extremum has the type of ext[0]. */
  predicate SameKindLater(kind: seq<int>, ext: seq<nat>)
    requires |ext| == 4 && ext[0] < |kind|
  {
    || (ext[1] < |kind| && kind[ext[1]] == kind[ext[0]])
    || (ext[2] < |kind| && kind[ext[2]] == kind[ext[0]])
    || (ext[3] < |kind| && kind[ext[3]] == kind[ext[0]])
  }

  /** The quadrangle around a saddle with destinations ext: i is ext[0], k
      the first later extremum of the same type, j and l the other two. */
  function Corners4(kind: seq<int>, ext: seq<nat>): (q: Quad)
    requires |ext| == 4 && ReadsDefined(kind, ext)
    ensures q.i == ext[0]
  {
    var i := ext[0];
    if kind[ext[1]] == kind[i] then Quad(i, ext[2], ext[1], ext[3])
    else if kind[ext[2]] == kind[i] then Quad(i, ext[1], ext[2], ext[3])
    else if kind[ext[3]] == kind[i] then Quad(i, ext[2], ext[3], ext[1])
    else Quad(i, i, i, i)
  }

  /** When a later extremum shares the type of ext[0], the other three
      corners are a permutation of the three later extrema and k has the
      type of i; otherwise all four corners are ext[0]. */
  lemma Corners4Selection(kind: seq<int>, ext: seq<nat>)
    requires |ext| == 4 && ReadsDefined(kind, ext)
    ensures var q := Corners4(kind, ext);
            && (SameKindLater(kind, ext) ==>
                  multiset{q.j, q.k, q.l} == multiset{ext[1], ext[2], ext[3]} && q.k < |kind| && kind[q.k] == kind[q.i])
            && (!SameKindLater(kind, ext) ==> q == Quad(ext[0], ext[0], ext[0], ext[0]))
  {
  }

  /** Next to an a, three values that make two a's and two b's are one a
      and two b's, in some order. */
  lemma OneAndTwo(a: int, x: int, y: int, z: int, b: int)
    requires a != b && multiset{a, x, y, z} == multiset{a, a, b, b}
    ensures (x == a && y == b && z == b) || (x == b && y == a && z == b) || (x == b && y == b && z == a)
  {
    var m := multiset{a, x, y, z};
    assert m[a] == 2 && m[b] == 2;
    assert x in m && y in m && z in m;
  }

  /** When the four extrema are two of each of two types, the quadrangle
      alternates: opposite corners share a type, adjacent ones do not. */
  lemma Corners4Alternates(kind: seq<int>, ext: seq<nat>, b: int)
    requires |ext| == 4
    requires forall t :: 0 <= t < 4 ==> ext[t] < |kind|
    requires b != kind[ext[0]]
    requires multiset{kind[ext[0]], kind[ext[1]], kind[ext[2]], kind[ext[3]]} ==
             multiset{kind[ext[0]], kind[ext[0]], b, b}
    ensures ReadsDefined(kind, ext)
    ensures var q := Corners4(kind, ext);
            q.i < |kind| && q.j < |kind| && q.k < |kind| && q.l < |kind| &&
            kind[q.k] == kind[q.i] && kind[q.j] == kind[q.l] && kind[q.j] != kind[q.i]
  {
    var a := kind[ext[0]];
    OneAndTwo(a, kind[ext[1]], kind[ext[2]], kind[ext[3]], b);
  }

  /** The sources in [s, top], in increasing order, with exactly four
      destinations. */
  function FourValent(cells: seq<int>, edges: seq<Edge>, s: nat, top: nat): (r: seq<nat>)
    ensures Increasing(r)
    ensures forall x :: x in r <==> s <= x <= top && |DestsOf(cells, edges, x)| == 4
    decreases top + 1 - s
  {
    if s > top then []
    else
      var rest := FourValent(cells, edges, s + 1, top);
      assert forall t :: 0 <= t < |rest| ==> rest[t] in rest;
      if |DestsOf(cells, edges, s)| == 4 then [s] + rest else rest
  }

  /** A four-destination source heads the list of those from it on. */
  lemma FourValentCons(cells: seq<int>, edges: seq<Edge>, s: nat, top: nat)
    requires s <= top && |DestsOf(cells, edges, s)| == 4
    ensures FourValent(cells, edges, s, top) == [s] + FourValent(cells, edges, s + 1, top)
  {
  }

  /** Every four-destination source allows its corner selection. */
  predicate WellDefined(cp: CriticalPoints, edges: seq<Edge>)
  {
    forall s: nat :: s <= cp.Count() && |DestsOf(cp.cell, edges, s)| == 4 ==>
      ReadsDefined(cp.kind, DestsOf(cp.cell, edges, s))
  }

  /** g lists, for each source, the destinations of its edges. */
  ghost predicate Grouped(cells: seq<int>, edges: seq<Edge>, g: map<nat, seq<nat>>)
  {
    forall x: nat ::
      (x in g <==> DestsOf(cells, edges, x) != []) && (x in g ==> g[x] == DestsOf(cells, edges, x))
  }

  /** Entry t of the list headed by s's quadrangle is the selection of the
      t-th four-destination source from s on. */
  lemma EmitAt(cp: CriticalPoints, edges: seq<Edge>, s: nat, rest: seq<Quad>, t: nat)
    requires WellDefined(cp, edges) && s <= cp.Count() && |DestsOf(cp.cell, edges, s)| == 4
    requires |rest| == |FourValent(cp.cell, edges, s + 1, cp.Count())|
    requires forall u :: 0 <= u < |rest| ==>
               rest[u] == Corners4(cp.kind, DestsOf(cp.cell, edges, FourValent(cp.cell, edges, s + 1, cp.Count())[u]))
    requires t <= |rest|
    ensures var all := FourValent(cp.cell, edges, s, cp.Count());
            t < |all| && all[t] <= cp.Count() && |DestsOf(cp.cell, edges, all[t])| == 4 &&
            ([Corners4(cp.kind, DestsOf(cp.cell, edges, s))] + rest)[t] == Corners4(cp.kind, DestsOf(cp.cell, edges, all[t]))
  {
    var later := FourValent(cp.cell, edges, s + 1, cp.Count());
    FourValentCons(cp.cell, edges, s, cp.Count());
    if t > 0 {
      assert later[t - 1] in later;
    }
  }

  /** A four-destination source s puts its quadrangle ahead of those of the
      later sources. */
  lemma EmitCons(cp: CriticalPoints, edges: seq<Edge>, s: nat, rest: seq<Quad>)
    requires WellDefined(cp, edges) && s <= cp.Count() && |DestsOf(cp.cell, edges, s)| == 4
    requires |rest| == |FourValent(cp.cell, edges, s + 1, cp.Count())|
    requires forall t :: 0 <= t < |rest| ==>
               rest[t] == Corners4(cp.kind, DestsOf(cp.cell, edges, FourValent(cp.cell, edges, s + 1, cp.Count())[t]))
    ensures ReadsDefined(cp.kind, DestsOf(cp.cell, edges, s))
    ensures var all := FourValent(cp.cell, edges, s, cp.Count());
            var qs := [Corners4(cp.kind, DestsOf(cp.cell, edges, s))] + rest;
            |qs| == |all| && forall t :: 0 <= t < |qs| ==> qs[t] == Corners4(cp.kind, DestsOf(cp.cell, edges, all[t]))
  {
    var later := FourValent(cp.cell, edges, s + 1, cp.Count());
    var all := FourValent(cp.cell, edges, s, cp.Count());
    FourValentCons(cp.cell, edges, s, cp.Count());
    var qs := [Corners4(cp.kind, DestsOf(cp.cell, edges, s))] + rest;
    forall t | 0 <= t < |qs|
      ensures qs[t] == Corners4(cp.kind, DestsOf(cp.cell, edges, all[t]))
    {
      EmitAt(cp, edges, s, rest, t);
    }
  }

  /** Walks the map in increasing key order from s, as a std::map is
      iterated; keys never exceed the number of critical points. */
  function EmitFrom(cp: CriticalPoints, edges: seq<Edge>, g: map<nat, seq<nat>>, s: nat): (qs: seq<Quad>)
    requires Grouped(cp.cell, edges, g) && WellDefined(cp, edges)
    ensures |qs| == |FourValent(cp.cell, edges, s, cp.Count())|
    ensures forall t :: 0 <= t < |qs| ==>
              qs[t] == Corners4(cp.kind, DestsOf(cp.cell, edges, FourValent(cp.cell, edges, s, cp.Count())[t]))
    decreases cp.Count() + 1 - s
  {
    if s > cp.Count() then []
    else
      var rest := EmitFrom(cp, edges, g, s + 1);
      var ds := DestsOf(cp.cell, edges, s);
      var later := FourValent(cp.cell, edges, s + 1, cp.Count());
      if s in g && |g[s]| == 4 then
        assert g[s] == ds;
        EmitCons(cp, edges, s, rest);
        [Corners4(cp.kind, ds)] + rest
      else
        assert |ds| != 4 by {
          if s !in g { assert ds == []; }
        }
        assert FourValent(cp.cell, edges, s, cp.Count()) == later;
        rest
  }

  /** Dual mode: one quadrangle per source with exactly four destinations,
      in increasing source order, and none for any other source. */
  function DualQuadrangulate(cp: CriticalPoints, edges: seq<Edge>): (qs: seq<Quad>)
    requires WellDefined(cp, edges)
    ensures |qs| == |FourValent(cp.cell, edges, 0, cp.Count())|
    ensures forall t :: 0 <= t < |qs| ==>
              qs[t] == Corners4(cp.kind, DestsOf(cp.cell, edges, FourValent(cp.cell, edges, 0, cp.Count())[t]))
  {
    var g := Group(cp.cell, edges);
    assert Grouped(cp.cell, edges, g) by {
      forall x: nat
        ensures (x in g <==> DestsOf(cp.cell, edges, x) != []) && (x in g ==> g[x] == DestsOf(cp.cell, edges, x))
      {
        GroupAt(cp.cell, edges, x);
      }
    }
    EmitFrom(cp, edges, g, 0)
  }
}

=== FILE: endpoints.dfy ===
/** The first stage of a run: dropping masked separatrix endpoint entries and
    pairing the survivors into (source, destination) cell-id edges. */
module Endpoints {
  import opened Common

  /** Raw separatrix data, one entry per sample: its surface cell id, its
      discard mask (1 = discard) and its 3D coordinates, three reals per
      sample. */
  datatype Separatrices = Separatrices(cell: seq<int>, mask: seq<int>, coords: seq<real>)
  {
    predicate Valid()
    {
      |mask| == |cell| && |coords| == 3 * |cell|
    }
  }

  /** A separatrix edge: source and destination surface cell ids. */
  type Edge = (int, int)

  /** Positions of the entries the mask keeps, in increasing order. */
  function Kept(mask: seq<int>): (r: seq<nat>)
    ensures Increasing(r)
    ensures forall t :: 0 <= t < |r| ==> r[t] < |mask| && mask[r[t]] != 1
    ensures forall p :: 0 <= p < |mask| && mask[p] != 1 ==> p in r
  {
    if |mask| == 0 then []
    else
      var front := mask[..|mask| - 1];
      var rest := Kept(front);
      assert forall t :: 0 <= t < |rest| ==> mask[rest[t]] == front[rest[t]];
      if mask[|mask| - 1] == 1 then rest else rest + [|mask| - 1]
  }

  /** Kept grows by the last position exactly when the mask keeps it. */
  lemma KeptStep(mask: seq<int>)
    requires |mask| > 0
    ensures Kept(mask) == if mask[|mask| - 1] == 1 then Kept(mask[..|mask| - 1])
                          else Kept(mask[..|mask| - 1]) + [|mask| - 1]
  {
  }

  /** The surviving cell ids, in their original order: one entry per kept
      position. */
  function Unmasked(s: Separatrices): (flat: seq<int>)
    requires |s.mask| == |s.cell|
    ensures |flat| == |Kept(s.mask)|
    ensures forall t :: 0 <= t < |flat| ==> flat[t] == s.cell[Kept(s.mask)[t]]
    decreases |s.cell|
  {
    if |s.cell| == 0 then []
    else
      var n := |s.cell| - 1;
      var front := Unmasked(Separatrices(s.cell[..n], s.mask[..n], s.coords));
      KeptStep(s.mask);
      if s.mask[n] == 1 then front else front + [s.cell[n]]
  }

  /** The surviving entries paired with their original positions. */
  function FlatPositions(s: Separatrices): (pos: seq<(int, nat)>)
    requires |s.mask| == |s.cell|
  {
    var kept := Kept(s.mask);
    seq(|kept|, t requires 0 <= t < |kept| => (s.cell[kept[t]], kept[t]))
  }

  /** Consecutive entries of flat taken two at a time. */
  function PairUp(flat: seq<int>): (edges: seq<Edge>)
    requires |flat| % 2 == 0
    ensures |edges| == |flat| / 2
    ensures forall t :: 0 <= t < |edges| ==> edges[t] == (flat[2 * t], flat[2 * t + 1])
  {
    if |flat| == 0 then [] else [(flat[0], flat[1])] + PairUp(flat[2..])
  }

  /** The endpoints of the edges, in order. */
  function Unpair(edges: seq<Edge>): (flat: seq<int>)
    ensures |flat| == 2 * |edges|
  {
    if |edges| == 0 then [] else [edges[0].0, edges[0].1] + Unpair(edges[1..])
  }

  /** Pairing loses nothing: unpairing restores the surviving entries. */
  lemma {:induction false} UnpairPairUp(flat: seq<int>)
    requires |flat| % 2 == 0
    ensures Unpair(PairUp(flat)) == flat
    decreases |flat|
  {
    if |flat| > 0 {
      var edges := PairUp(flat);
      assert edges[1..] == PairUp(flat[2..]);
      UnpairPairUp(flat[2..]);
      assert flat == [flat[0], flat[1]] + flat[2..];
    }
  }

  /** And every edge list arises from pairing its own endpoints. */
  lemma {:induction false} PairUpUnpair(edges: seq<Edge>)
    ensures PairUp(Unpair(edges)) == edges
    decreases |edges|
  {
    if |edges| > 0 {
      var flat := Unpair(edges);
      assert flat[2..] == Unpair(edges[1..]);
      PairUpUnpair(edges[1..]);
      assert edges == [edges[0]] + edges[1..];
    }
  }
}

=== FILE: lookup.dfy ===
/** Resolving surface cell ids to critical-point identifiers by scanning the
    critical-point table. */
module Lookup {

  /** The first identifier whose cell id is c, or |cells| (one past the last
      identifier) when no critical point has that cell id. */
  function Resolve(cells: seq<int>, c: int): (r: nat)
    ensures r <= |cells|
    ensures r < |cells| ==> cells[r] == c
    ensures forall t :: 0 <= t < r ==> cells[t] != c
  {
    if |cells| == 0 then 0
    else if cells[0] == c then 0
    else 1 + Resolve(cells[1..], c)
  }

  /** Every identifier whose cell id is c. */
  function MatchSet(cells: seq<int>, c: int): set<nat>
  {
    set i: nat | i < |cells| && cells[i] == c
  }

  /** The first match is the least element of the set of all matches, and
      the sentinel is returned exactly when that set is empty. */
  lemma ResolveLeastMatch(cells: seq<int>, c: int)
    ensures Resolve(cells, c) == |cells| <==> MatchSet(cells, c) == {}
    ensures Resolve(cells, c) < |cells| ==>
              Resolve(cells, c) in MatchSet(cells, c) &&
              forall i :: i in MatchSet(cells, c) ==> Resolve(cells, c) <= i
  {
    var r := Resolve(cells, c);
    if r < |cells| {
      assert r in MatchSet(cells, c);
    }
  }
}

=== FILE: manifold.dfy ===
/** The common-manifold test: a breadth-first search capped at a fixed number
    of processed vertices around each critical point, collecting the
    segmentation ids it meets, followed by an intersection of those id sets. */
module Manifold {
  import opened Common

  /** The triangulation as seen through its two queries: the number of
      neighbours of a vertex, and the j-th neighbour of a vertex. */
  datatype Mesh = Mesh(degree: nat -> nat, neighbor: (nat, nat) -> nat)

  /** The search stops once more than this many vertices are processed. */
  const Cap: nat := 20

  /** What one search has processed, and the segmentation ids it met. */
  datatype Visit = Visit(processed: set<nat>, manifolds: set<int>)

  /** ids holds exactly the segmentation ids of the vertices vs. */
  ghost predicate Image(seg: nat -> int, vs: set<nat>, ids: set<int>)
  {
    && (forall v :: v in vs ==> seg(v) in ids)
    && (forall m :: m in ids ==> exists v :: v in vs && seg(v) == m)
  }

  /** The first d neighbours of v, in query order. */
  function Neighbours(mesh: Mesh, v: nat, d: nat): (ns: seq<nat>)
    ensures |ns| == d
    ensures forall j :: 0 <= j < d ==> ns[j] == mesh.neighbor(v, j)
  {
    if d == 0 then [] else Neighbours(mesh, v, d - 1) + [mesh.neighbor(v, d - 1)]
  }

  /** The entries of cs not yet in done, in order. */
  function Unvisited(cs: seq<nat>, done: set<nat>): (r: seq<nat>)
    ensures forall v :: v in r <==> v in cs && v !in done
  {
    if |cs| == 0 then []
    else (if cs[0] in done then [] else [cs[0]]) + Unvisited(cs[1..], done)
  }

  /** Number of leading queue entries that are already processed. */
  function Leading(queue: seq<nat>, done: set<nat>): (n: nat)
    ensures n <= |queue|
  {
    if |queue| == 0 || queue[0] !in done then 0 else 1 + Leading(queue[1..], done)
  }

  /** Appending entries that are not yet processed leaves the processed
      prefix of the queue as it was. */
  lemma {:induction false} LeadingAppend(a: seq<nat>, b: seq<nat>, done: set<nat>)
    requires forall v :: v in b ==> v !in done
    ensures Leading(a + b, done) == Leading(a, done)
    decreases |a|
  {
    if |a| == 0 {
      assert a + b == b;
      if |b| > 0 {
        assert b[0] in b;
      }
    } else {
      assert (a + b)[0] == a[0];
      assert (a + b)[1..] == a[1..] + b;
      LeadingAppend(a[1..], b, done);
    }
  }

  /** Every neighbour (by index below d) of a processed vertex is processed
      or still waiting in the queue. */
  ghost predicate Covered(mesh: Mesh, d: nat, done: set<nat>, queue: seq<nat>)
  {
    forall u, j :: u in done && 0 <= j < d ==> mesh.neighbor(u, j) in done || mesh.neighbor(u, j) in queue
  }

  /** Every neighbour (by index below d) of a processed vertex is processed. */
  ghost predicate Closed(mesh: Mesh, d: nat, done: set<nat>)
  {
    forall u, j :: u in done && 0 <= j < d ==> mesh.neighbor(u, j) in done
  }

  /** v is the j-th neighbour of u for some j below d. */
  ghost predicate Step(mesh: Mesh, d: nat, u: nat, v: nat)
  {
    exists j :: 0 <= j < d && v == mesh.neighbor(u, j)
  }

  /** Each vertex of the path is a neighbour (by index below d) of the one
      before it. */
  ghost predicate Walk(mesh: Mesh, d: nat, path: seq<nat>)
  {
    forall i :: 0 <= i < |path| - 1 ==> Step(mesh, d, path[i], path[i + 1])
  }

  /** Some walk leads from start to v. */
  ghost predicate Reachable(mesh: Mesh, d: nat, start: nat, v: nat)
  {
    exists path :: |path| > 0 && path[0] == start && path[|path| - 1] == v && Walk(mesh, d, path)
  }

  /** Every vertex of vs is reachable from start. */
  ghost predicate AllReachable(mesh: Mesh, d: nat, start: nat, vs: set<nat>)
  {
    forall v :: v in vs ==> Reachable(mesh, d, start, v)
  }

  /** The start reaches itself by the one-vertex walk. */
  lemma ReachStart(mesh: Mesh, d: nat, start: nat)
    ensures Reachable(mesh, d, start, start)
  {
    assert Walk(mesh, d, [start]);
  }

  /** A walk extended by one neighbour query of its last vertex is a walk. */
  lemma WalkExtend(mesh: Mesh, d: nat, path: seq<nat>, j: nat)
    requires |path| > 0 && Walk(mesh, d, path) && j < d
    ensures Walk(mesh, d, path + [mesh.neighbor(path[|path| - 1], j)])
  {
    var u := path[|path| - 1];
    var w := mesh.neighbor(u, j);
    var path' := path + [w];
    forall i | 0 <= i < |path'| - 1
      ensures Step(mesh, d, path'[i], path'[i + 1])
    {
      if i < |path| - 1 {
        assert path'[i] == path[i] && path'[i + 1] == path[i + 1];
      } else {
        assert path'[i] == u && path'[i + 1] == w;
      }
    }
  }

  /** A neighbour of a reachable vertex is reachable: extend its walk by one. */
  lemma ReachNeighbour(mesh: Mesh, d: nat, start: nat, u: nat, j: nat)
    requires Reachable(mesh, d, start, u) && j < d
    ensures Reachable(mesh, d, start, mesh.neighbor(u, j))
  {
    var path :| |path| > 0 && path[0] == start && path[|path| - 1] == u && Walk(mesh, d, path);
    var w := mesh.neighbor(u, j);
    var path' := path + [w];
    WalkExtend(mesh, d, path, j);
    assert path'[0] == start && path'[|path'| - 1] == w && Walk(mesh, d, path');
  }

  /** The vertices within k neighbour steps of start, built layer by layer:
      start alone, then every neighbour (by index below d) of a vertex
      within k - 1 steps. */
  function Ball(mesh: Mesh, d: nat, start: nat, k: nat): set<nat>
  {
    if k == 0 then {start}
    else
      var inner := Ball(mesh, d, start, k - 1);
      inner + set u, j | u in inner && 0 <= j < d :: mesh.neighbor(u, j)
  }

  /** Some walk of at most k steps leads from start to v. */
  ghost predicate WalkWithin(mesh: Mesh, d: nat, start: nat, k: nat, v: nat)
  {
    exists path :: 0 < |path| <= k + 1 && path[0] == start && path[|path| - 1] == v && Walk(mesh, d, path)
  }

  /** Every vertex within k steps is the end of a walk of at most k steps. */
  lemma {:induction false} BallHasWalk(mesh: Mesh, d: nat, start: nat, k: nat, v: nat)
    requires v in Ball(mesh, d, start, k)
    ensures WalkWithin(mesh, d, start, k, v)
    decreases k
  {
    if k == 0 {
      assert Walk(mesh, d, [start]);
      assert [start][0] == start;
    } else {
      var inner := Ball(mesh, d, start, k - 1);
      if v in inner {
        BallHasWalk(mesh, d, start, k - 1, v);
      } else {
        var u, j :| u in inner && 0 <= j < d && v == mesh.neighbor(u, j);
        BallHasWalk(mesh, d, start, k - 1, u);
        var path :| 0 < |path| <= k && path[0] == start && path[|path| - 1] == u && Walk(mesh, d, path);
        WalkExtend(mesh, d, path, j);
        var path' := path + [v];
        assert path'[0] == start && path'[|path'| - 1] == v;
      }
    }
  }

  /** The end of a walk of at most k steps is within k steps. */
  lemma {:induction false} WalkInBall(mesh: Mesh, d: nat, start: nat, k: nat, v: nat)
    requires WalkWithin(mesh, d, start, k, v)
    ensures v in Ball(mesh, d, start, k)
    decreases k
  {
    var path :| 0 < |path| <= k + 1 && path[0] == start && path[|path| - 1] == v && Walk(mesh, d, path);
    if k > 0 {
      var inner := Ball(mesh, d, start, k - 1);
      if |path| <= k {
        WalkInBall(mesh, d, start, k - 1, v);
      } else {
        var front := path[..k];
        var u := path[k - 1];
        assert Walk(mesh, d, front) by {
          forall i | 0 <= i < |front| - 1
            ensures Step(mesh, d, front[i], front[i + 1])
          {
            assert front[i] == path[i] && front[i + 1] == path[i + 1];
          }
        }
        assert front[0] == start && front[|front| - 1] == u;
        WalkInBall(mesh, d, start, k - 1, u);
        assert Step(mesh, d, path[k - 1], path[k]);
        var j :| 0 <= j < d && v == mesh.neighbor(u, j);
        assert v in set u, j | u in inner && 0 <= j < d :: mesh.neighbor(u, j);
      }
    }
  }

  /** The layers are the walk distances: v is within k steps of start
      exactly when some walk of at most k steps leads there. */
  lemma BallWalks(mesh: Mesh, d: nat, start: nat, k: nat, v: nat)
    ensures v in Ball(mesh, d, start, k) <==> WalkWithin(mesh, d, start, k, v)
  {
    if v in Ball(mesh, d, start, k) {
      BallHasWalk(mesh, d, start, k, v);
    }
    if WalkWithin(mesh, d, start, k, v) {
      WalkInBall(mesh, d, start, k, v);
    }
  }

  /** A layer holds every layer before it. */
  lemma {:induction false} BallGrows(mesh: Mesh, d: nat, start: nat, k: nat, n: nat)
    requires k <= n
    ensures Ball(mesh, d, start, k) <= Ball(mesh, d, start, n)
    decreases n
  {
    if k < n {
      BallGrows(mesh, d, start, k, n - 1);
    }
  }

  /** vs is the ball of some radius k with part of the next layer added:
      what a breadth-first search has processed when it stops. */
  ghost predicate Layered(mesh: Mesh, d: nat, start: nat, vs: set<nat>)
  {
    exists k: nat :: Ball(mesh, d, start, k) <= vs && vs <= Ball(mesh, d, start, k + 1)
  }

  /** The breadth-first state at level L: the first m queue entries are
      within L steps and the rest within L + 1, every processed vertex is
      within L steps, every vertex within L - 1 steps is processed, and every
      vertex within L steps is processed or among the first m entries. */
  ghost predicate Layers(mesh: Mesh, d: nat, start: nat, done: set<nat>, queue: seq<nat>, L: nat, m: nat)
  {
    && m <= |queue|
    && (forall t :: 0 <= t < m ==> queue[t] in Ball(mesh, d, start, L))
    && (forall t :: m <= t < |queue| ==> queue[t] in Ball(mesh, d, start, L + 1))
    && done <= Ball(mesh, d, start, L)
    && (L == 0 || Ball(mesh, d, start, L - 1) <= done)
    && (forall v :: v in Ball(mesh, d, start, L) ==> v in done || v in queue[..m])
  }

  /** Once no queue entry of level L is left, the whole queue is the next
      level. */
  lemma LayersNext(mesh: Mesh, d: nat, start: nat, done: set<nat>, queue: seq<nat>, L: nat)
    requires Layers(mesh, d, start, done, queue, L, 0)
    requires Covered(mesh, d, done, queue)
    ensures Layers(mesh, d, start, done, queue, L + 1, |queue|)
  {
    var outer := Ball(mesh, d, start, L + 1);
    assert queue[..|queue|] == queue;
    forall v | v in outer
      ensures v in done || v in queue
    {
      if v !in Ball(mesh, d, start, L) {
        var u, j :| u in Ball(mesh, d, start, L) && 0 <= j < d && v == mesh.neighbor(u, j);
        assert u in done;
      }
    }
  }

  /** The level of the queue's head: the given level while entries of it
      are left, otherwise the next. */
  lemma LayersHead(mesh: Mesh, d: nat, start: nat, done: set<nat>, queue: seq<nat>, L: nat, m: nat)
      returns (L': nat, m': nat)
    requires Layers(mesh, d, start, done, queue, L, m)
    requires Covered(mesh, d, done, queue)
    ensures Layers(mesh, d, start, done, queue, L', m')
    ensures |queue| > 0 ==> m' > 0
  {
    L', m' := L, m;
    if |queue| > 0 && m == 0 {
      LayersNext(mesh, d, start, done, queue, L);
      L', m' := L + 1, |queue|;
    }
  }

  /** Processing a head of level L keeps the breadth-first state, with one
      entry of level L fewer. */
  lemma LayersStep(mesh: Mesh, d: nat, start: nat, done: set<nat>, queue: seq<nat>, L: nat, m: nat)
    requires 0 < m && Layers(mesh, d, start, done, queue, L, m)
    ensures Layers(mesh, d, start, done + {queue[0]}, NextQueue(mesh, d, done, queue), L, m - 1)
  {
    var curr := queue[0];
    var done' := done + {curr};
    var pending := Unvisited(Neighbours(mesh, curr, d), done');
    var queue' := NextQueue(mesh, d, done, queue);
    forall t | m - 1 <= t < |queue'|
      ensures queue'[t] in Ball(mesh, d, start, L + 1)
    {
      if t < |queue| - 1 {
        assert queue'[t] == queue[t + 1];
      } else {
        var v := queue'[t];
        assert v in pending;
        var j :| 0 <= j < d && Neighbours(mesh, curr, d)[j] == v;
        assert v in set u, j | u in Ball(mesh, d, start, L) && 0 <= j < d :: mesh.neighbor(u, j);
      }
    }
    forall v | v in Ball(mesh, d, start, L)
      ensures v in done' || v in queue'[..m - 1]
    {
      if v !in done' {
        var t :| 0 <= t < m && queue[t] == v;
        assert queue'[t - 1] == v;
      }
    }
  }

  /** The search loop. TTK's search asks every vertex for as many
      neighbours as the start vertex has, and so does this one. */
  function Explore(mesh: Mesh, seg: nat -> int, start: nat, queue: seq<nat>,
                   done: set<nat>, ids: set<int>): (r: Visit)
    requires |done| <= Cap
    requires Image(seg, done, ids)
    requires Covered(mesh, mesh.degree(start), done, queue)
    requires forall t :: 0 <= t < |queue| ==> Reachable(mesh, mesh.degree(start), start, queue[t])
    requires AllReachable(mesh, mesh.degree(start), start, done)
    ensures done <= r.processed
    ensures |queue| > 0 ==> queue[0] in r.processed
    ensures |r.processed| <= Cap + 1
    ensures Image(seg, r.processed, r.manifolds)
    ensures |r.processed| <= Cap ==> Closed(mesh, mesh.degree(start), r.processed)
    ensures AllReachable(mesh, mesh.degree(start), start, r.processed)
    decreases Cap + 1 - |done|, Leading(queue, done)
  {
    if |queue| == 0 then Visit(done, ids)
    else
      var d := mesh.degree(start);
      var curr := queue[0];
      var done' := done + {curr};
      var ids' := ids + {seg(curr)};
      assert Image(seg, done', ids');
      assert Reachable(mesh, d, start, curr);
      assert AllReachable(mesh, d, start, done');
      if |done'| > Cap then Visit(done', ids')
      else
        var pending := Unvisited(Neighbours(mesh, curr, d), done');
        var queue' := queue[1..] + pending;
        assert curr in done ==> done' == done && Leading(queue', done') < Leading(queue, done) by {
          if curr in done {
            LeadingAppend(queue[1..], pending, done);
          }
        }
        CoveredStep(mesh, d, done, queue);
        ReachableStep(mesh, d, start, done, queue);
        Explore(mesh, seg, start, queue', done', ids')
  }

  /** The queue after processing its head: the rest, then the head's
      neighbours not yet processed. */
  function NextQueue(mesh: Mesh, d: nat, done: set<nat>, queue: seq<nat>): seq<nat>
    requires |queue| > 0
  {
    queue[1..] + Unvisited(Neighbours(mesh, queue[0], d), done + {queue[0]})
  }

  /** Processing the head keeps every neighbour of a processed vertex
      processed or queued. */
  lemma CoveredStep(mesh: Mesh, d: nat, done: set<nat>, queue: seq<nat>)
    requires |queue| > 0 && Covered(mesh, d, done, queue)
    ensures Covered(mesh, d, done + {queue[0]}, NextQueue(mesh, d, done, queue))
  {
    var curr := queue[0];
    var done' := done + {curr};
    var pending := Unvisited(Neighbours(mesh, curr, d), done');
    var queue' := NextQueue(mesh, d, done, queue);
    forall u, j | u in done' && 0 <= j < d
      ensures mesh.neighbor(u, j) in done' || mesh.neighbor(u, j) in queue'
    {
      var w := mesh.neighbor(u, j);
      if u == curr {
        assert Neighbours(mesh, curr, d)[j] == w;
        assert w in done' || w in pending;
      } else if w !in done' {
        assert w in queue && w != queue[0];
        assert w in queue[1..];
      }
    }
  }

  /** Processing the head keeps every queued vertex reachable. */
  lemma ReachableStep(mesh: Mesh, d: nat, start: nat, done: set<nat>, queue: seq<nat>)
    requires |queue| > 0
    requires forall t :: 0 <= t < |queue| ==> Reachable(mesh, d, start, queue[t])
    ensures forall t :: 0 <= t < |NextQueue(mesh, d, done, queue)| ==> Reachable(mesh, d, start, NextQueue(mesh, d, done, queue)[t])
  {
    var curr := queue[0];
    var pending := Unvisited(Neighbours(mesh, curr, d), done + {curr});
    var queue' := NextQueue(mesh, d, done, queue);
    forall t | 0 <= t < |queue'|
      ensures Reachable(mesh, d, start, queue'[t])
    {
      if t < |queue| - 1 {
        assert queue'[t] == queue[t + 1];
      } else {
        var v := queue'[t];
        assert v in pending;
        var j :| 0 <= j < d && Neighbours(mesh, curr, d)[j] == v;
        ReachNeighbour(mesh, d, start, curr, j);
      }
    }
  }

  /** Processing a vertex adds its segmentation id to the image. */
  lemma ImageStep(seg: nat -> int, done: set<nat>, ids: set<int>, v: nat)
    requires Image(seg, done, ids)
    ensures Image(seg, done + {v}, ids + {seg(v)})
  {
  }

  /** Popping a head that is already processed shortens the processed
      prefix of the queue. */
  lemma LeadingStep(mesh: Mesh, d: nat, done: set<nat>, queue: seq<nat>)
    requires |queue| > 0 && queue[0] in done
    ensures Leading(NextQueue(mesh, d, done, queue), done) < Leading(queue, done)
  {
    LeadingAppend(queue[1..], Unvisited(Neighbours(mesh, queue[0], d), done + {queue[0]}), done);
  }

  /** A search whose queue ran dry stops holding exactly its last level. */
  lemma LayeredEmpty(mesh: Mesh, d: nat, start: nat, done: set<nat>, L: nat, m: nat)
    requires Layers(mesh, d, start, done, [], L, m)
    ensures Layered(mesh, d, start, done)
  {
    assert forall v :: v in Ball(mesh, d, start, L) ==> v in done;
    BallGrows(mesh, d, start, L, L + 1);
  }

  /** A search stopped by the cap just after processing a head of level L
      holds every vertex below level L and nothing beyond it. */
  lemma LayeredStop(mesh: Mesh, d: nat, start: nat, done: set<nat>, queue: seq<nat>, L: nat, m: nat)
    requires 0 < m && Layers(mesh, d, start, done, queue, L, m)
    ensures Layered(mesh, d, start, done + {queue[0]})
  {
    var done' := done + {queue[0]};
    assert queue[0] in Ball(mesh, d, start, L);
    if L == 0 {
      BallGrows(mesh, d, start, 0, 1);
      assert Ball(mesh, d, start, 0) <= done' <= Ball(mesh, d, start, 0 + 1);
    } else {
      var k: nat := L - 1;
      assert Ball(mesh, d, start, k) <= done' <= Ball(mesh, d, start, k + 1);
    }
  }

  /** What the search loop needs of its state: the cap not yet passed, the
      ids the image of the processed vertices, every neighbour of a
      processed vertex processed or queued, and everything queued or
      processed reachable. */
  ghost predicate Searching(mesh: Mesh, seg: nat -> int, start: nat, queue: seq<nat>, done: set<nat>, ids: set<int>)
  {
    && |done| <= Cap
    && Image(seg, done, ids)
    && Covered(mesh, mesh.degree(start), done, queue)
    && (forall t :: 0 <= t < |queue| ==> Reachable(mesh, mesh.degree(start), start, queue[t]))
    && AllReachable(mesh, mesh.degree(start), start, done)
  }

  /** One uncapped turn of the loop keeps the search state and makes
      progress: either a new vertex is processed or the processed prefix of
      the queue shrinks. */
  lemma SearchStep(mesh: Mesh, seg: nat -> int, start: nat, queue: seq<nat>, done: set<nat>, ids: set<int>)
    requires Searching(mesh, seg, start, queue, done, ids)
    requires |queue| > 0 && |done + {queue[0]}| <= Cap
    ensures var d := mesh.degree(start);
            var done' := done + {queue[0]};
            var queue' := NextQueue(mesh, d, done, queue);
            && Searching(mesh, seg, start, queue', done', ids + {seg(queue[0])})
            && (|done'| > |done| || (done' == done && Leading(queue', done') < Leading(queue, done)))
  {
    var d := mesh.degree(start);
    var curr := queue[0];
    var done' := done + {curr};
    if curr in done {
      LeadingStep(mesh, d, done, queue);
      assert done' == done;
    } else {
      assert |done'| == |done| + 1;
    }
    ImageStep(seg, done, ids, curr);
    assert Reachable(mesh, d, start, curr);
    CoveredStep(mesh, d, done, queue);
    ReachableStep(mesh, d, start, done, queue);
  }

  /** A search started in a breadth-first state stops with a layered
      processed set: no vertex is processed while one strictly nearer to the
      start is left out. */
  lemma {:induction false} ExploreLayers(mesh: Mesh, seg: nat -> int, start: nat, queue: seq<nat>,
                                         done: set<nat>, ids: set<int>, L: nat, m: nat)
    requires Searching(mesh, seg, start, queue, done, ids)
    requires Layers(mesh, mesh.degree(start), start, done, queue, L, m)
    ensures Layered(mesh, mesh.degree(start), start, Explore(mesh, seg, start, queue, done, ids).processed)
    decreases Cap + 1 - |done|, Leading(queue, done)
  {
    var d := mesh.degree(start);
    var L, m := LayersHead(mesh, d, start, done, queue, L, m);
    if |queue| == 0 {
      LayeredEmpty(mesh, d, start, done, L, m);
    } else if |done + {queue[0]}| > Cap {
      LayeredStop(mesh, d, start, done, queue, L, m);
    } else {
      SearchStep(mesh, seg, start, queue, done, ids);
      LayersStep(mesh, d, start, done, queue, L, m);
      ExploreLayers(mesh, seg, start, NextQueue(mesh, d, done, queue), done + {queue[0]}, ids + {seg(queue[0])}, L, m - 1);
    }
  }

  /** A search stops with every vertex within some radius k processed and
      nothing beyond radius k + 1: it never processes a vertex while one
      strictly nearer to v is left out. */
  lemma ShorterFirst(mesh: Mesh, seg: nat -> int, v: nat, n: nat, u: nat, w: nat)
    requires u in Neighbourhood(mesh, seg, v).processed
    requires w in Ball(mesh, mesh.degree(v), v, n) && u !in Ball(mesh, mesh.degree(v), v, n)
    ensures w in Neighbourhood(mesh, seg, v).processed
  {
    var d := mesh.degree(v);
    var vs := Neighbourhood(mesh, seg, v).processed;
    var k: nat :| Ball(mesh, d, v, k) <= vs && vs <= Ball(mesh, d, v, k + 1);
    if k < n {
      BallGrows(mesh, d, v, k + 1, n);
      assert false;
    }
    BallGrows(mesh, d, v, n, k);
  }

  /** The capped search around one vertex. */
  function Neighbourhood(mesh: Mesh, seg: nat -> int, v: nat): (r: Visit)
    ensures v in r.processed
    ensures seg(v) in r.manifolds
    ensures |r.processed| <= Cap + 1
    ensures |r.processed| <= Cap ==> Closed(mesh, mesh.degree(v), r.processed)
    ensures AllReachable(mesh, mesh.degree(v), v, r.processed)
    ensures Layered(mesh, mesh.degree(v), v, r.processed)
  {
    ReachStart(mesh, mesh.degree(v), v);
    assert [v][..1] == [v];
    ExploreLayers(mesh, seg, v, [v], {}, {}, 0, 1);
    Explore(mesh, seg, v, [v], {}, {})
  }

  /** The ids the search around v collects are exactly the segmentation ids
      of the vertices it processed. */
  lemma NeighbourhoodIds(mesh: Mesh, seg: nat -> int, v: nat)
    ensures Image(seg, Neighbourhood(mesh, seg, v).processed, Neighbourhood(mesh, seg, v).manifolds)
  {
  }

  /** m lies in every one of the sets. */
  predicate InAll(sets: seq<set<int>>, m: int)
  {
    forall t :: 0 <= t < |sets| ==> m in sets[t]
  }

  /** Left-to-right intersection of last with every set of rest. */
  function IntersectFrom(last: set<int>, rest: seq<set<int>>): (r: set<int>)
    ensures forall m :: m in r <==> m in last && InAll(rest, m)
    decreases |rest|
  {
    if |rest| == 0 then last
    else
      var r := IntersectFrom(last * rest[0], rest[1..]);
      assert forall m :: InAll(rest, m) <==> m in rest[0] && InAll(rest[1..], m) by {
        forall m
          ensures InAll(rest, m) <==> m in rest[0] && InAll(rest[1..], m)
        {
          assert forall t :: 1 <= t < |rest| ==> rest[1..][t - 1] == rest[t];
        }
      }
      r
  }

  /** The ids common to all the given sets: the first set intersected with
      the second, that result with the third, and so on. */
  function Shared(sets: seq<set<int>>): (r: set<int>)
    requires |sets| > 0
    ensures forall m :: m in r <==> InAll(sets, m)
  {
    var r := IntersectFrom(sets[0], sets[1..]);
    assert forall m :: InAll(sets, m) <==> m in sets[0] && InAll(sets[1..], m) by {
      forall m
        ensures InAll(sets, m) <==> m in sets[0] && InAll(sets[1..], m)
      {
        assert forall t :: 1 <= t < |sets| ==> sets[1..][t - 1] == sets[t];
      }
    }
    r
  }

  /** The intersection is non-empty exactly when some id lies in every set. */
  lemma SharedNonEmpty(sets: seq<set<int>>)
    requires |sets| > 0
    ensures Shared(sets) != {} <==> exists m :: m in sets[0] && InAll(sets, m)
  {
    if Shared(sets) != {} {
      var m := Pick(Shared(sets));
      assert m in sets[0];
    }
  }

  /** Segmentation ids met by the search around the domain vertex of
      critical point p. */
  function ManifoldsAround(cp: CriticalPoints, mesh: Mesh, seg: nat -> int, p: nat): set<int>
    requires cp.Valid() && p < cp.Count()
  {
    Neighbourhood(mesh, seg, cp.vertex[p]).manifolds
  }

  /** The id sets of the searches around each of the given critical points. */
  function AroundEach(cp: CriticalPoints, mesh: Mesh, seg: nat -> int, verts: seq<nat>): (sets: seq<set<int>>)
    requires cp.Valid()
    requires forall t :: 0 <= t < |verts| ==> verts[t] < cp.Count()
    ensures |sets| == |verts|
    ensures forall t :: 0 <= t < |verts| ==> sets[t] == ManifoldsAround(cp, mesh, seg, verts[t])
  {
    seq(|verts|, t requires 0 <= t < |verts| => ManifoldsAround(cp, mesh, seg, verts[t]))
  }

  /** True iff some segmentation id is met by the searches around all the
      given critical points. */
  function HasCommonManifold(cp: CriticalPoints, mesh: Mesh, seg: nat -> int, verts: seq<nat>): (b: bool)
    requires cp.Valid() && |verts| > 0
    requires forall t :: 0 <= t < |verts| ==> verts[t] < cp.Count()
    ensures b <==> exists m :: m in AroundEach(cp, mesh, seg, verts)[0] && InAll(AroundEach(cp, mesh, seg, verts), m)
  {
    var sets := AroundEach(cp, mesh, seg, verts);
    SharedNonEmpty(sets);
    assert sets == AroundEach(cp, mesh, seg, verts);
    assert (Shared(sets) != {}) <==> exists m :: m in sets[0] && InAll(sets, m);
    Shared(sets) != {}
  }
}

=== FILE: middle.dfy ===
/** Subdividing separatrices: locating the bounds of the separatrices that
    run from one critical point to another in the filtered point data,
    finding the sample closest to half the arc length of each, and caching
    the result so each separatrix is subdivided once. */
module Middle {
  import opened Common
  import opened Endpoints

  /** An unmasked separatrix entry: its cell id and its original sample
      index. */
  type Position = (int, nat)

  /** The three coordinates of sample s. */
  function Sample(coords: seq<real>, s: nat): (p: seq<real>)
    requires 3 * s + 3 <= |coords|
    ensures |p| == 3
    ensures p[0] == coords[3 * s] && p[1] == coords[3 * s + 1] && p[2] == coords[3 * s + 2]
  {
    coords[3 * s..3 * s + 3]
  }

  /** The index pairs (i, i + 1) the bounds scan reads, with i running over
      every entry as the loop is written: the last pair's second index is
      one past the end. */
  function ConsecutiveAsWritten(n: nat): (r: seq<(nat, nat)>)
    ensures |r| == n
    ensures forall t :: 0 <= t < n ==> r[t] == (t, t + 1)
  {
    if n == 0 then [] else ConsecutiveAsWritten(n - 1) + [(n - 1, n)]
  }

  /** As written, a scan over a non-empty list reads the entry at index n,
      which a list of n entries does not have. */
  lemma ScanReadsPastEnd(n: nat)
    requires n > 0
    ensures exists t :: 0 <= t < |ConsecutiveAsWritten(n)| && ConsecutiveAsWritten(n)[t].1 == n
  {
    assert ConsecutiveAsWritten(n)[n - 1].1 == n;
  }

  /** The index pairs (i, i + 1) with both indices inside a list of n
      entries, the scan as intended: every consecutive pair of the list,
      and nothing past its end. */
  function Consecutive(n: nat): (r: seq<(nat, nat)>)
    ensures |r| == if n == 0 then 0 else n - 1
    ensures forall t :: 0 <= t < |r| ==> r[t] == (t, t + 1) && t + 1 < n
  {
    if n <= 1 then [] else Consecutive(n - 1) + [(n - 2, n - 1)]
  }

  /** The read pair p finds cell c1 at sample a, then cell c2 at sample b. */
  predicate PairAt(pos: seq<Position>, p: (nat, nat), c1: int, c2: int, a: nat, b: nat)
  {
    p.0 < |pos| && p.1 < |pos| && pos[p.0] == (c1, a) && pos[p.1] == (c2, b)
  }

  /** Sample bounds (a, b) of the separatrices from cell c1 to cell c2:
      consecutive unmasked entries whose cell ids are c1 then c2, among the
      given read pairs, in scan order. */
  function Select(pos: seq<Position>, c1: int, c2: int, pairs: seq<(nat, nat)>): (r: seq<(nat, nat)>)
    requires forall t :: 0 <= t < |pairs| ==> pairs[t].1 < |pos| && pairs[t].0 < |pos|
    ensures forall a: nat, b: nat :: (a, b) in r <==> exists t :: 0 <= t < |pairs| && PairAt(pos, pairs[t], c1, c2, a, b)
  {
    if |pairs| == 0 then []
    else
      var p := pos[pairs[0].0];
      var q := pos[pairs[0].1];
      var rest := Select(pos, c1, c2, pairs[1..]);
      assert forall t :: 1 <= t < |pairs| ==> pairs[1..][t - 1] == pairs[t];
      (if p.0 == c1 && q.0 == c2 then [(p.1, q.1)] else []) + rest
  }

  /** Entries i and i + 1 are cells c1 then c2, at samples a then b. */
  predicate StepAt(pos: seq<Position>, i: nat, c1: int, c2: int, a: nat, b: nat)
  {
    i + 1 < |pos| && pos[i] == (c1, a) && pos[i + 1] == (c2, b)
  }

  /** Bounds of the separatrices from c1 to c2. */
  function Bounds(pos: seq<Position>, c1: int, c2: int): (r: seq<(nat, nat)>)
    ensures forall a: nat, b: nat :: (a, b) in r <==> exists i: nat :: StepAt(pos, i, c1, c2, a, b)
  {
    var pairs := Consecutive(|pos|);
    var r := Select(pos, c1, c2, pairs);
    assert forall a: nat, b: nat :: (a, b) in r <==> exists i: nat :: StepAt(pos, i, c1, c2, a, b) by {
      forall a: nat, b: nat
        ensures (a, b) in r <==> exists i: nat :: StepAt(pos, i, c1, c2, a, b)
      {
        if exists i: nat :: StepAt(pos, i, c1, c2, a, b) {
          var i: nat :| StepAt(pos, i, c1, c2, a, b);
          assert pairs[i] == (i, i + 1);
          assert PairAt(pos, pairs[i], c1, c2, a, b);
        }
        if (a, b) in r {
          var t :| 0 <= t < |pairs| && PairAt(pos, pairs[t], c1, c2, a, b);
          assert pairs[t] == (t, t + 1);
          assert StepAt(pos, t, c1, c2, a, b);
        }
      }
    }
    r
  }

  /** Sample indices strictly increase along the list and stay below n:
      what the filtered positions of a well-formed separatrix table are. */
  predicate Spaced(pos: seq<Position>, n: nat)
  {
    && (forall t :: 0 <= t < |pos| ==> pos[t].1 < n)
    && (forall s, t :: 0 <= s < t < |pos| ==> pos[s].1 < pos[t].1)
  }

  /** The filtered positions of a separatrix table are spaced. */
  lemma FlatPositionsSpaced(s: Separatrices)
    requires s.Valid()
    ensures Spaced(FlatPositions(s), |s.cell|)
  {
  }

  /** Over spaced positions, every bound is a proper sample range. */
  lemma BoundsOrdered(pos: seq<Position>, n: nat, c1: int, c2: int)
    requires Spaced(pos, n)
    ensures forall t :: 0 <= t < |Bounds(pos, c1, c2)| ==>
              Bounds(pos, c1, c2)[t].0 < Bounds(pos, c1, c2)[t].1 < n
  {
    var r := Bounds(pos, c1, c2);
    forall t | 0 <= t < |r|
      ensures r[t].0 < r[t].1 < n
    {
      var (a, b) := r[t];
      assert (a, b) in r;
      var i: nat :| StepAt(pos, i, c1, c2, a, b);
    }
  }

  /** Over positions spaced within the coordinates, every bound is a
      readable sample range. */
  lemma BoundsReadable(pos: seq<Position>, coords: seq<real>, c1: int, c2: int)
    requires Spaced(pos, |coords| / 3)
    ensures forall k :: k in Bounds(pos, c1, c2) ==> Readable(coords, k)
  {
    BoundsOrdered(pos, |coords| / 3, c1, c2);
  }

  function Abs(x: real): real
  {
    if x < 0.0 then -x else x
  }

  /** Arc length from sample a to sample a + t along the polyline. */
  function Arc(coords: seq<real>, dist: (seq<real>, seq<real>) -> real, a: nat, t: nat): real
    requires 3 * (a + t) + 3 <= |coords|
  {
    if t == 0 then 0.0
    else Arc(coords, dist, a, t - 1) + dist(Sample(coords, a + t), Sample(coords, a + t - 1))
  }

  /** How far the arc length of sample a + t is from half the length of
      the range [a, b]. */
  function Deviation(coords: seq<real>, dist: (seq<real>, seq<real>) -> real, a: nat, b: nat, t: nat): real
    requires a < b && 3 * b + 3 <= |coords| && t <= b - a
  {
    Abs(Arc(coords, dist, a, t) - Arc(coords, dist, a, b - a) / 2.0)
  }

  /** The deviations of all samples of the range, in order. */
  function Deviations(coords: seq<real>, dist: (seq<real>, seq<real>) -> real, a: nat, b: nat): (ds: seq<real>)
    requires a < b && 3 * b + 3 <= |coords|
    ensures |ds| == b - a + 1
    ensures forall t :: 0 <= t <= b - a ==> ds[t] == Deviation(coords, dist, a, b, t)
  {
    seq(b - a + 1, t requires 0 <= t < b - a + 1 => Deviation(coords, dist, a, b, t))
  }

  /** Index of the first smallest entry, scanning left to right and moving
      only on a strictly smaller entry. */
  function FirstMin(xs: seq<real>): (m: nat)
    requires |xs| > 0
    ensures m < |xs|
    ensures forall t :: 0 <= t < |xs| ==> xs[m] <= xs[t]
    ensures forall t :: 0 <= t < m ==> xs[m] < xs[t]
  {
    if |xs| == 1 then 0
    else
      var front := xs[..|xs| - 1];
      var m := FirstMin(front);
      assert forall t :: 0 <= t < |front| ==> front[t] == xs[t];
      if xs[|xs| - 1] < xs[m] then |xs| - 1 else m
  }

  /** The first smallest entry is unique: any index that is a minimum and
      beats every earlier entry is the one FirstMin finds. */
  lemma FirstMinUnique(xs: seq<real>, m: nat)
    requires m < |xs|
    requires forall t :: 0 <= t < |xs| ==> xs[m] <= xs[t]
    requires forall t :: 0 <= t < m ==> xs[m] < xs[t]
    ensures m == FirstMin(xs)
  {
  }

  /** id is the first sample of the range [a, b] whose deviation from half
      the range's length is least. */
  predicate IsMiddle(coords: seq<real>, dist: (seq<real>, seq<real>) -> real, a: nat, b: nat, id: nat)
    requires a < b && 3 * b + 3 <= |coords|
  {
    && a <= id <= b
    && (forall t :: 0 <= t <= b - a ==> Deviation(coords, dist, a, b, id - a) <= Deviation(coords, dist, a, b, t))
    && (forall t :: 0 <= t < id - a ==> Deviation(coords, dist, a, b, id - a) < Deviation(coords, dist, a, b, t))
  }

  /** The middle sample of the range [a, b]: the first sample whose arc
      length is closest to half the range's length. */
  function MiddleOf(coords: seq<real>, dist: (seq<real>, seq<real>) -> real, a: nat, b: nat): (id: nat)
    requires a < b && 3 * b + 3 <= |coords|
    ensures a <= id <= b
    ensures forall t :: 0 <= t <= b - a ==> Deviation(coords, dist, a, b, id - a) <= Deviation(coords, dist, a, b, t)
    ensures forall t :: 0 <= t < id - a ==> Deviation(coords, dist, a, b, id - a) < Deviation(coords, dist, a, b, t)
  {
    a + FirstMin(Deviations(coords, dist, a, b))
  }

  /** The middle is the first sample of least deviation. */
  lemma MiddleOfIsMiddle(coords: seq<real>, dist: (seq<real>, seq<real>) -> real, a: nat, b: nat)
    requires a < b && 3 * b + 3 <= |coords|
    ensures IsMiddle(coords, dist, a, b, MiddleOf(coords, dist, a, b))
  {
  }

  /** The middle is the only sample with that property. */
  lemma MiddleUnique(coords: seq<real>, dist: (seq<real>, seq<real>) -> real, a: nat, b: nat, id: nat)
    requires a < b && 3 * b + 3 <= |coords|
    requires IsMiddle(coords, dist, a, b, id)
    ensures id == MiddleOf(coords, dist, a, b)
  {
    FirstMinUnique(Deviations(coords, dist, a, b), id - a);
  }

  /** The subdivision cache, keyed by sample range, and the points
      produced so far, three coordinates each. */
  datatype Middles = Middles(cache: map<(nat, nat), nat>, points: seq<real>)

  /** A sample range whose coordinates can be read. */
  predicate Readable(coords: seq<real>, key: (nat, nat))
  {
    key.0 < key.1 && 3 * key.1 + 3 <= |coords|
  }

  /** Every range of the list can be read. */
  predicate RangesReadable(coords: seq<real>, ranges: seq<(nat, nat)>)
  {
    forall k :: k in ranges ==> Readable(coords, k)
  }

  /** Every cached range maps to its middle sample. */
  ghost predicate Cached(coords: seq<real>, dist: (seq<real>, seq<real>) -> real, st: Middles)
  {
    forall key :: key in st.cache ==> Readable(coords, key) && st.cache[key] == MiddleOf(coords, dist, key.0, key.1)
  }

  /** One point per cached range. */
  predicate Balanced(st: Middles)
  {
    |st.points| == 3 * |st.cache|
  }

  /** The empty state: no cache entries and no points. */
  lemma EmptyMiddles(coords: seq<real>, dist: (seq<real>, seq<real>) -> real)
    ensures Cached(coords, dist, Middles(map[], [])) && Balanced(Middles(map[], []))
  {
  }

  /** The t-th point of a flat point buffer. */
  function Block(points: seq<real>, t: nat): seq<real>
    requires 3 * t + 3 <= |points|
  {
    points[3 * t..3 * t + 3]
  }

  /** Subdivides one range unless it is already cached. */
  function SubdivideRange(coords: seq<real>, dist: (seq<real>, seq<real>) -> real, st: Middles, key: (nat, nat)): (r: Middles)
    requires Readable(coords, key)
    ensures key in st.cache ==> r == st
    ensures key !in st.cache ==>
              && r.cache.Keys == st.cache.Keys + {key}
              && (forall k :: k in st.cache ==> r.cache[k] == st.cache[k])
              && IsMiddle(coords, dist, key.0, key.1, r.cache[key])
              && r.points == st.points + Sample(coords, r.cache[key])
  {
    if key in st.cache then st
    else
      var id := MiddleOf(coords, dist, key.0, key.1);
      MiddleOfIsMiddle(coords, dist, key.0, key.1);
      Middles(st.cache[key := id], st.points + Sample(coords, id))
  }

  /** A new key adds one entry to the cache. */
  lemma NewKeySize(cache: map<(nat, nat), nat>, key: (nat, nat), id: nat)
    requires key !in cache
    ensures |cache[key := id]| == |cache| + 1
  {
    assert cache[key := id].Keys == cache.Keys + {key};
  }

  /** One range step adds exactly that range to the cache, changes no
      cached middle, only appends points, and keeps the cache correct and
      one point per cached range. */
  lemma SubdivideRangeKeeps(coords: seq<real>, dist: (seq<real>, seq<real>) -> real, st: Middles, key: (nat, nat))
    requires Readable(coords, key)
    ensures var r := SubdivideRange(coords, dist, st, key);
            && (forall k :: k in r.cache <==> k in st.cache || k == key)
            && (forall k :: k in st.cache ==> r.cache[k] == st.cache[k])
            && st.points <= r.points
            && (Balanced(st) ==> Balanced(r))
            && (Cached(coords, dist, st) ==> Cached(coords, dist, r))
  {
    if key !in st.cache {
      var id := MiddleOf(coords, dist, key.0, key.1);
      NewKeySize(st.cache, key, id);
    }
  }

  /** The ranges a pass over ranges subdivides when the keys of known are
      cached already: each range neither known nor met earlier in the pass,
      in pass order. */
  function Fresh(known: set<(nat, nat)>, ranges: seq<(nat, nat)>): (r: seq<(nat, nat)>)
    ensures forall k :: k in r <==> k in ranges && k !in known
    ensures Distinct(r)
    decreases |ranges|
  {
    if |ranges| == 0 then []
    else
      assert forall k :: k in ranges <==> k == ranges[0] || k in ranges[1..];
      if ranges[0] in known then Fresh(known, ranges[1..])
      else
        var rest := Fresh(known + {ranges[0]}, ranges[1..]);
        assert ranges[0] !in rest;
        assert forall t :: 0 <= t < |rest| ==> ([ranges[0]] + rest)[t + 1] == rest[t];
        [ranges[0]] + rest
  }

  /** The three coordinates of the middle sample of the range k. */
  function MiddleSample(coords: seq<real>, dist: (seq<real>, seq<real>) -> real, k: (nat, nat)): (p: seq<real>)
    requires Readable(coords, k)
    ensures |p| == 3
  {
    Sample(coords, MiddleOf(coords, dist, k.0, k.1))
  }

  /** The middle samples of the given ranges, three coordinates each, in
      the order of the ranges. */
  function Samples(coords: seq<real>, dist: (seq<real>, seq<real>) -> real, keys: seq<(nat, nat)>): (ps: seq<real>)
    requires forall k :: k in keys ==> Readable(coords, k)
    ensures |ps| == 3 * |keys|
    decreases |keys|
  {
    if |keys| == 0 then []
    else
      assert keys[0] in keys && Readable(coords, keys[0]);
      assert forall k :: k in keys[1..] ==> k in keys;
      MiddleSample(coords, dist, keys[0]) + Samples(coords, dist, keys[1..])
  }

  /** The t-th point of the samples is the middle sample of the t-th range. */
  lemma {:induction false} SamplesBlock(coords: seq<real>, dist: (seq<real>, seq<real>) -> real, keys: seq<(nat, nat)>, t: nat)
    requires forall k :: k in keys ==> Readable(coords, k)
    requires t < |keys|
    ensures Readable(coords, keys[t])
    ensures Block(Samples(coords, dist, keys), t) == MiddleSample(coords, dist, keys[t])
    decreases t
  {
    SamplesUnfold(coords, dist, keys);
    var first := MiddleSample(coords, dist, keys[0]);
    var rest := Samples(coords, dist, keys[1..]);
    if t == 0 {
      BlockFront(first, rest);
    } else {
      SamplesBlock(coords, dist, keys[1..], t - 1);
      assert keys[1..][t - 1] == keys[t];
      BlockShift(first, rest, t);
    }
  }

  /** The samples of a non-empty list: its first range's middle sample,
      then the samples of the rest. */
  lemma SamplesUnfold(coords: seq<real>, dist: (seq<real>, seq<real>) -> real, keys: seq<(nat, nat)>)
    requires forall k :: k in keys ==> Readable(coords, k)
    requires |keys| > 0
    ensures keys[0] in keys && forall k :: k in keys[1..] ==> k in keys
    ensures Samples(coords, dist, keys) == MiddleSample(coords, dist, keys[0]) + Samples(coords, dist, keys[1..])
  {
    assert keys[0] in keys;
    assert forall k :: k in keys[1..] ==> k in keys;
  }

  /** The first point of a buffer is its first three entries. */
  lemma BlockFront(first: seq<real>, rest: seq<real>)
    requires |first| == 3
    ensures Block(first + rest, 0) == first
  {
    assert (first + rest)[..3] == first;
  }

  /** Behind a leading point, the t-th point is the (t - 1)-th of the rest. */
  lemma BlockShift(first: seq<real>, rest: seq<real>, t: nat)
    requires |first| == 3 && 0 < t && 3 * t + 3 <= |first| + |rest|
    ensures Block(first + rest, t) == Block(rest, t - 1)
  {
    assert (first + rest)[3..] == rest;
    assert (first + rest)[3 * t..3 * t + 3] == (first + rest)[3..][3 * t - 3..3 * t];
  }

  /** Some point block is the middle sample of the range k. */
  ghost predicate HasMiddle(coords: seq<real>, dist: (seq<real>, seq<real>) -> real, points: seq<real>, k: (nat, nat))
    requires Readable(coords, k)
  {
    exists t: nat :: 3 * t + 3 <= |points| && Block(points, t) == MiddleSample(coords, dist, k)
  }

  /** The middle sample of every listed range is among the samples. */
  lemma SamplesCover(coords: seq<real>, dist: (seq<real>, seq<real>) -> real, keys: seq<(nat, nat)>, k: (nat, nat))
    requires RangesReadable(coords, keys) && k in keys
    ensures Readable(coords, k) && HasMiddle(coords, dist, Samples(coords, dist, keys), k)
  {
    var t :| 0 <= t < |keys| && keys[t] == k;
    SamplesBlock(coords, dist, keys, t);
  }

  /** The samples make whole 3D points. */
  lemma SamplesWhole(coords: seq<real>, dist: (seq<real>, seq<real>) -> real, keys: seq<(nat, nat)>)
    requires RangesReadable(coords, keys)
    ensures |Samples(coords, dist, keys)| % 3 == 0
  {
    TripleMod(|keys|);
  }

  lemma {:induction false} TripleMod(n: nat)
    ensures (3 * n) % 3 == 0
  {
    if n > 0 {
      TripleMod(n - 1);
      assert 3 * n == 3 * (n - 1) + 3;
    }
  }

  /** The samples of key :: keys are key's middle sample followed by the
      samples of keys. */
  lemma SamplesCons(coords: seq<real>, dist: (seq<real>, seq<real>) -> real, key: (nat, nat), keys: seq<(nat, nat)>)
    requires Readable(coords, key) && forall k :: k in keys ==> Readable(coords, k)
    ensures Samples(coords, dist, [key] + keys) ==
            MiddleSample(coords, dist, key) + Samples(coords, dist, keys)
  {
    assert ([key] + keys)[1..] == keys;
  }

  /** Append regroups. Stated on its own so that the regrouping in
      FreshStep does not pull sequence extensionality into that proof. */
  lemma AppendAssoc(a: seq<real>, b: seq<real>, c: seq<real>)
    ensures (a + b) + c == a + (b + c)
  {
  }

  /** One range step followed by the rest of the pass appends the samples
      of the same fresh ranges as the whole pass. */
  lemma FreshStep(coords: seq<real>, dist: (seq<real>, seq<real>) -> real, st: Middles, ranges: seq<(nat, nat)>)
    requires |ranges| > 0 && forall k :: k in ranges ==> Readable(coords, k)
    ensures var next := SubdivideRange(coords, dist, st, ranges[0]);
            next.points + Samples(coords, dist, Fresh(next.cache.Keys, ranges[1..])) ==
            st.points + Samples(coords, dist, Fresh(st.cache.Keys, ranges))
  {
    var key := ranges[0];
    var next := SubdivideRange(coords, dist, st, key);
    var known := st.cache.Keys;
    if key in st.cache {
      assert Fresh(known, ranges) == Fresh(known, ranges[1..]);
    } else {
      var tail := Fresh(known + {key}, ranges[1..]);
      assert next.cache.Keys == known + {key};
      assert Fresh(known, ranges) == [key] + tail;
      SamplesCons(coords, dist, key, tail);
      var first := MiddleSample(coords, dist, key);
      var rest := Samples(coords, dist, tail);
      assert next.points == st.points + first;
      AppendAssoc(st.points, first, rest);
    }
  }

  /** Subdivides the given ranges in order. Ranges already cached, before
      or earlier in the same pass, are left alone; every other range gets
      its middle cached and its point appended. */
  function SubdivideAll(coords: seq<real>, dist: (seq<real>, seq<real>) -> real, st: Middles, ranges: seq<(nat, nat)>): (r: Middles)
    requires forall k :: k in ranges ==> Readable(coords, k)
    ensures forall k :: k in r.cache <==> k in st.cache || k in ranges
    ensures forall k :: k in st.cache ==> r.cache[k] == st.cache[k]
    ensures st.points <= r.points
    ensures Cached(coords, dist, st) ==> Cached(coords, dist, r)
    ensures Balanced(st) ==> Balanced(r)
    decreases |ranges|
  {
    if |ranges| == 0 then st
    else
      var key := ranges[0];
      var next := SubdivideRange(coords, dist, st, key);
      SubdivideRangeKeeps(coords, dist, st, key);
      var r := SubdivideAll(coords, dist, next, ranges[1..]);
      assert forall k :: k in ranges <==> k == key || k in ranges[1..];
      r
  }

  /** A pass appends exactly the middle samples of the ranges that were not
      cached before it, each once, in the order the pass meets them. */
  lemma {:induction false} SubdivideAllPoints(coords: seq<real>, dist: (seq<real>, seq<real>) -> real, st: Middles, ranges: seq<(nat, nat)>)
    requires forall k :: k in ranges ==> Readable(coords, k)
    ensures SubdivideAll(coords, dist, st, ranges).points == st.points + Samples(coords, dist, Fresh(st.cache.Keys, ranges))
    decreases |ranges|
  {
    if |ranges| == 0 {
      assert Fresh(st.cache.Keys, ranges) == [];
    } else {
      var next := SubdivideRange(coords, dist, st, ranges[0]);
      assert forall k :: k in ranges[1..] ==> k in ranges;
      SubdivideAllPoints(coords, dist, next, ranges[1..]);
      FreshStep(coords, dist, st, ranges);
    }
  }

  /** A pass over ranges that are all cached already changes nothing. */
  lemma {:induction false} SubdivideAllCached(coords: seq<real>, dist: (seq<real>, seq<real>) -> real, st: Middles, ranges: seq<(nat, nat)>)
    requires forall k :: k in ranges ==> Readable(coords, k)
    requires forall k :: k in ranges ==> k in st.cache
    ensures SubdivideAll(coords, dist, st, ranges) == st
    decreases |ranges|
  {
    if |ranges| > 0 {
      assert SubdivideRange(coords, dist, st, ranges[0]) == st;
      assert forall k :: k in ranges[1..] ==> k in ranges;
      SubdivideAllCached(coords, dist, st, ranges[1..]);
    }
  }

  /** A pass over a + b is a pass over a followed by a pass over b. */
  lemma {:induction false} SubdivideAllAppend(coords: seq<real>, dist: (seq<real>, seq<real>) -> real, st: Middles,
                                              a: seq<(nat, nat)>, b: seq<(nat, nat)>)
    requires forall k :: k in a ==> Readable(coords, k)
    requires forall k :: k in b ==> Readable(coords, k)
    ensures SubdivideAll(coords, dist, st, a + b) ==
            SubdivideAll(coords, dist, SubdivideAll(coords, dist, st, a), b)
    decreases |a|
  {
    if |a| == 0 {
      assert a + b == b;
    } else {
      assert (a + b)[0] == a[0];
      assert (a + b)[1..] == a[1..] + b;
      assert forall k :: k in a[1..] ==> k in a;
      SubdivideAllAppend(coords, dist, SubdivideRange(coords, dist, st, a[0]), a[1..], b);
    }
  }

  /** Subdividing is idempotent: a second pass over the same ranges finds
      every one cached and leaves the state as the first pass left it. */
  lemma SubdivideAllIdempotent(coords: seq<real>, dist: (seq<real>, seq<real>) -> real, st: Middles, ranges: seq<(nat, nat)>)
    requires forall k :: k in ranges ==> Readable(coords, k)
    ensures var once := SubdivideAll(coords, dist, st, ranges);
            SubdivideAll(coords, dist, once, ranges) == once
  {
    var once := SubdivideAll(coords, dist, st, ranges);
    SubdivideAllCached(coords, dist, once, ranges);
  }

  /** The separatrices from critical point src to critical point dst, each
      subdivided once. */
  function FindSeparatrixMiddle(cp: CriticalPoints, pos: seq<Position>, coords: seq<real>,
                                dist: (seq<real>, seq<real>) -> real, src: nat, dst: nat, st: Middles): (r: Middles)
    requires cp.Valid() && src < cp.Count() && dst < cp.Count()
    requires Spaced(pos, |coords| / 3)
    ensures forall k :: k in r.cache <==> k in st.cache || k in Bounds(pos, cp.cell[src], cp.cell[dst])
    ensures forall k :: k in st.cache ==> r.cache[k] == st.cache[k]
    ensures st.points <= r.points
    ensures Cached(coords, dist, st) ==> Cached(coords, dist, r)
    ensures Balanced(st) ==> Balanced(r)
  {
    var ranges := Bounds(pos, cp.cell[src], cp.cell[dst]);
    BoundsReadable(pos, coords, cp.cell[src], cp.cell[dst]);
    SubdivideAll(coords, dist, st, ranges)
  }

  /** The points the middle finder appends are exactly the middle samples
      of the bounds between src and dst that were not cached before, each
      once, in scan order. */
  lemma SeparatrixMiddlePoints(cp: CriticalPoints, pos: seq<Position>, coords: seq<real>,
                               dist: (seq<real>, seq<real>) -> real, src: nat, dst: nat, st: Middles)
    requires cp.Valid() && src < cp.Count() && dst < cp.Count()
    requires Spaced(pos, |coords| / 3)
    ensures RangesReadable(coords, Bounds(pos, cp.cell[src], cp.cell[dst]))
    ensures FindSeparatrixMiddle(cp, pos, coords, dist, src, dst, st).points ==
            st.points + Samples(coords, dist, Fresh(st.cache.Keys, Bounds(pos, cp.cell[src], cp.cell[dst])))
  {
    BoundsReadable(pos, coords, cp.cell[src], cp.cell[dst]);
    SubdivideAllPoints(coords, dist, st, Bounds(pos, cp.cell[src], cp.cell[dst]));
  }
}

=== FILE: pairs.dfy ===
/** Ordered listings used by the direct quadrangulation: the ascending
    listing of a set of identifiers, the enumeration of the pairs (j, l),
    j before l, of such a listing, and the lexicographic order on
    quadrangles that shows no quadrangle is produced twice. */
module Pairs {
  import opened Common

  /** The elements of s below n, in increasing order: how a std::set is
      walked, or a sorted intersection is written out. */
  function Ascending(s: set<nat>, n: nat): (r: seq<nat>)
    ensures Increasing(r)
    ensures forall x :: x in r <==> x in s && x < n
  {
    if n == 0 then []
    else
      var r := Ascending(s, n - 1);
      assert forall t :: 0 <= t < |r| ==> r[t] in r;
      if n - 1 in s then r + [n - 1] else r
  }

  /** The elements of s below n. */
  ghost function Under(s: set<nat>, n: nat): set<nat>
  {
    set x | x in s && x < n
  }

  /** Raising the bound by one adds n - 1 when it is an element. */
  lemma UnderStep(s: set<nat>, n: nat)
    requires n > 0
    ensures |Under(s, n)| == |Under(s, n - 1)| + (if n - 1 in s then 1 else 0)
  {
    if n - 1 in s {
      assert Under(s, n) == Under(s, n - 1) + {n - 1};
      assert n - 1 !in Under(s, n - 1);
    } else {
      assert Under(s, n) == Under(s, n - 1);
    }
  }

  /** The listing has one entry per element below the bound. */
  lemma {:induction false} AscendingSize(s: set<nat>, n: nat)
    ensures |Ascending(s, n)| == |Under(s, n)|
  {
    if n > 0 {
      AscendingSize(s, n - 1);
      UnderStep(s, n);
      assert |Ascending(s, n)| == |Ascending(s, n - 1)| + (if n - 1 in s then 1 else 0);
    } else {
      assert Under(s, n) == {};
    }
  }

  /** When every element is below the bound the listing is the whole set:
      its length is the set's cardinality. */
  lemma AscendingAll(s: set<nat>, n: nat)
    requires forall x :: x in s ==> x < n
    ensures |Ascending(s, n)| == |s|
    ensures forall x :: x in Ascending(s, n) <==> x in s
  {
    AscendingSize(s, n);
    assert Under(s, n) == s;
  }

  /** Lexicographic order on (i, k, j, l): the order in which the direct
      quadrangulation's loops meet quadrangles. */
  predicate Before(x: Quad, y: Quad)
  {
    || x.i < y.i
    || (x.i == y.i && x.k < y.k)
    || (x.i == y.i && x.k == y.k && x.j < y.j)
    || (x.i == y.i && x.k == y.k && x.j == y.j && x.l < y.l)
  }

  /** Strictly increasing in that order. */
  predicate Ordered(qs: seq<Quad>)
  {
    forall a, b :: 0 <= a < b < |qs| ==> Before(qs[a], qs[b])
  }

  /** A strictly ordered list repeats nothing. */
  lemma OrderedDistinct(qs: seq<Quad>)
    requires Ordered(qs)
    ensures Distinct(qs)
  {
    forall a, b | 0 <= a < b < |qs|
      ensures qs[a] != qs[b]
    {
      assert Before(qs[a], qs[b]);
    }
  }

  /** Two ordered lists, the first wholly before the second, concatenate
      to an ordered list. */
  lemma OrderedConcat(a: seq<Quad>, b: seq<Quad>)
    requires Ordered(a) && Ordered(b)
    requires forall x, y :: x in a && y in b ==> Before(x, y)
    ensures Ordered(a + b)
  {
    var c := a + b;
    forall s, t | 0 <= s < t < |c|
      ensures Before(c[s], c[t])
    {
      if t < |a| {
        assert c[s] == a[s] && c[t] == a[t];
      } else if s >= |a| {
        assert c[s] == b[s - |a|] && c[t] == b[t - |a|];
      } else {
        assert c[s] == a[s] && c[t] == b[t - |a|];
        assert c[s] in a && c[t] in b;
      }
    }
  }

  /** The quadrangles (i, cs[m], k, cs[b]) for b from n on that ok accepts. */
  function RowQuads(i: nat, k: nat, cs: seq<nat>, m: nat, n: nat, ok: (nat, nat) -> bool): (qs: seq<Quad>)
    requires m < |cs| && n <= |cs|
    ensures forall q :: q in qs <==>
              exists b :: n <= b < |cs| && q == Quad(i, cs[m], k, cs[b]) && ok(cs[m], cs[b])
    decreases |cs| - n
  {
    if n == |cs| then []
    else
      var rest := RowQuads(i, k, cs, m, n + 1, ok);
      (if ok(cs[m], cs[n]) then [Quad(i, cs[m], k, cs[n])] else []) + rest
  }

  /** The quadrangles (i, cs[a], k, cs[b]), m <= a < b, that ok accepts,
      by increasing a and then b. */
  function PairQuads(i: nat, k: nat, cs: seq<nat>, m: nat, ok: (nat, nat) -> bool): (qs: seq<Quad>)
    requires m <= |cs|
    ensures forall q :: q in qs <==>
              exists a, b :: m <= a < b < |cs| && q == Quad(i, cs[a], k, cs[b]) && ok(cs[a], cs[b])
    decreases |cs| - m
  {
    if m == |cs| then []
    else RowQuads(i, k, cs, m, m + 1, ok) + PairQuads(i, k, cs, m + 1, ok)
  }

  /** Each row is ordered by its last corner. */
  lemma {:induction false} RowQuadsOrdered(i: nat, k: nat, cs: seq<nat>, m: nat, n: nat, ok: (nat, nat) -> bool)
    requires Increasing(cs) && m < |cs| && n <= |cs|
    ensures Ordered(RowQuads(i, k, cs, m, n, ok))
    decreases |cs| - n
  {
    if n < |cs| {
      var rest := RowQuads(i, k, cs, m, n + 1, ok);
      RowQuadsOrdered(i, k, cs, m, n + 1, ok);
      var head := if ok(cs[m], cs[n]) then [Quad(i, cs[m], k, cs[n])] else [];
      forall x, y | x in head && y in rest
        ensures Before(x, y)
      {
        var b :| n + 1 <= b < |cs| && y == Quad(i, cs[m], k, cs[b]) && ok(cs[m], cs[b]);
        assert cs[n] < cs[b];
      }
      OrderedConcat(head, rest);
    }
  }

  /** The pairs of a sorted listing come out in lexicographic order. */
  lemma {:induction false} PairQuadsOrdered(i: nat, k: nat, cs: seq<nat>, m: nat, ok: (nat, nat) -> bool)
    requires Increasing(cs) && m <= |cs|
    ensures Ordered(PairQuads(i, k, cs, m, ok))
    decreases |cs| - m
  {
    if m < |cs| {
      var row := RowQuads(i, k, cs, m, m + 1, ok);
      var rest := PairQuads(i, k, cs, m + 1, ok);
      RowQuadsOrdered(i, k, cs, m, m + 1, ok);
      PairQuadsOrdered(i, k, cs, m + 1, ok);
      forall x, y | x in row && y in rest
        ensures Before(x, y)
      {
        var a :| m + 1 <= a < |cs| && exists b :: a < b < |cs| && y == Quad(i, cs[a], k, cs[b]) && ok(cs[a], cs[b]);
        assert cs[m] < cs[a];
      }
      OrderedConcat(row, rest);
    }
  }

  /** Over a sorted listing, the enumeration yields exactly the quadrangles
      (i, j, k, l) with j and l listed, j < l, and ok(j, l). */
  lemma PairQuadsMembers(i: nat, k: nat, cs: seq<nat>, ok: (nat, nat) -> bool, q: Quad)
    requires Increasing(cs)
    ensures q in PairQuads(i, k, cs, 0, ok) <==>
              q.i == i && q.k == k && q.j in cs && q.l in cs && q.j < q.l && ok(q.j, q.l)
  {
    if q.i == i && q.k == k && q.j in cs && q.l in cs && q.j < q.l && ok(q.j, q.l) {
      var a :| 0 <= a < |cs| && cs[a] == q.j;
      var b :| 0 <= b < |cs| && cs[b] == q.l;
      assert a < b;
      assert q == Quad(i, cs[a], k, cs[b]);
    }
  }
}

=== FILE: quadrangulation.dfy ===
/** A whole run: clear the outputs, drop masked separatrix entries, refuse
    an odd number of survivors, pair them into edges, then build either the
    dual quadrangulation or the direct one followed by its post-processing. */
module Quadrangulation {
  import opened Common
  import opened Endpoints
  import opened Manifold
  import opened Dual
  import opened Pairs
  import opened Direct
  import opened Middle
  import opened Valence

  /** Everything a run reads: the critical points, the separatrix samples,
      the surface (adjacency and segmentation), the distance between two 3D
      points, and the choice of mode. */
  datatype Input = Input(
    cp: CriticalPoints,
    seps: Separatrices,
    mesh: Mesh,
    seg: nat -> int,
    dist: (seq<real>, seq<real>) -> real,
    dual: bool)

  /** What a run leaves behind: its status (0 or -1), the cell buffer, the
      point buffer (three reals per point) and the degenerate counter. */
  datatype Outcome = Outcome(status: int, cells: seq<int>, points: seq<real>, degenerate: nat)

  /** The edges of a run with an even number of surviving entries. */
  function Edges(s: Separatrices): seq<Edge>
    requires |s.mask| == |s.cell| && |Unmasked(s)| % 2 == 0
  {
    PairUp(Unmasked(s))
  }

  /** What the chosen mode needs of its input: in dual mode every corner
      selection reads inside the type table, in direct mode the source table
      has a slot for every destination. */
  ghost predicate Supported(input: Input)
    requires input.seps.Valid()
  {
    |Unmasked(input.seps)| % 2 == 0 ==>
      if input.dual then WellDefined(input.cp, Edges(input.seps))
      else SlotsSuffice(input.cp.cell, Edges(input.seps))
  }

  /** The point block is the middle sample of a range along a bad
      quadrangle of the direct quadrangulation qs. */
  ghost predicate MiddlePoint(input: Input, qs: seq<Quad>, valence: seq<nat>, block: seq<real>)
    requires input.cp.Valid() && input.seps.Valid() && |valence| == input.cp.Count()
    requires forall q :: q in qs ==> q.Below(input.cp.Count())
  {
    var coords := input.seps.coords;
    exists k :: AlongBad(input.cp, FlatPositions(input.seps), qs, valence, k) && Readable(coords, k) &&
      block == MiddleSample(coords, input.dist, k)
  }

  /** The points are whole 3D points, each such a middle sample. */
  ghost predicate MiddlePoints(input: Input, qs: seq<Quad>, valence: seq<nat>, points: seq<real>)
    requires input.cp.Valid() && input.seps.Valid() && |valence| == input.cp.Count()
    requires forall q :: q in qs ==> q.Below(input.cp.Count())
  {
    && |points| % 3 == 0
    && forall t: nat :: 3 * t + 3 <= |points| ==> MiddlePoint(input, qs, valence, Block(points, t))
  }

  /** The points of direct mode: the middle samples of the ranges along
      the bad quadrangles of qs, each such range exactly once, in the order
      the post-processing first meets them. */
  ghost predicate SubdividedOnce(input: Input, qs: seq<Quad>, valence: seq<nat>, points: seq<real>)
    requires input.cp.Valid() && input.seps.Valid() && |valence| == input.cp.Count()
    requires forall q :: q in qs ==> q.Below(input.cp.Count())
  {
    var pos := FlatPositions(input.seps);
    var order := Fresh({}, BadRanges(input.cp, pos, qs, valence));
    && Distinct(order)
    && (forall k :: k in order <==> AlongBad(input.cp, pos, qs, valence, k))
    && RangesReadable(input.seps.coords, order)
    && points == Samples(input.seps.coords, input.dist, order)
  }

  /** Preconditions shared by the two modes: well-formed tables and an even
      number of surviving entries. */
  predicate Paired(input: Input)
  {
    input.cp.Valid() && input.seps.Valid() && |Unmasked(input.seps)| % 2 == 0
  }

  /** The outcome of dual mode: the cell buffer holds, in increasing source
      order, one quadrangle for each source with exactly four destinations,
      the one its corner selection gives; no points, no degenerate count. */
  ghost predicate DualResult(input: Input, r: Outcome)
    requires Paired(input) && WellDefined(input.cp, Edges(input.seps))
  {
    var edges := Edges(input.seps);
    var four := FourValent(input.cp.cell, edges, 0, input.cp.Count());
    && r.status == 0
    && Decode(r.cells).Some?
    && |Decode(r.cells).value| == |four|
    && (forall t :: 0 <= t < |four| ==>
          Decode(r.cells).value[t] == Corners4(input.cp.kind, DestsOf(input.cp.cell, edges, four[t])))
    && r.points == [] && r.degenerate == 0
  }

  /** The quadrangles of direct mode: exactly those the pair rule accepts
      over the source table, in loop order with none repeated, every corner
      a critical point, and the degenerate counter counting the degenerate
      ones. */
  ghost predicate DirectQuads(input: Input, r: Outcome)
    requires Paired(input)
  {
    var edges := Edges(input.seps);
    var table := SourceTable(input.cp.cell, edges);
    && r.status == 0
    && Decode(r.cells).Some?
    && Shaped(table, |input.cp.kind|)
    && Accepted(table, input.cp.kind, Linked(input.cp, input.mesh, input.seg), Decode(r.cells).value)
    && (forall q :: q in Decode(r.cells).value ==> q.Below(input.cp.Count()))
    && Ordered(Decode(r.cells).value)
    && r.degenerate == DegenerateCount(Decode(r.cells).value)
  }

  /** The points of direct mode: one middle sample per range along a bad
      quadrangle of the decoded buffer, with the separatrix counts of the
      paired edges deciding which points are bad. */
  ghost predicate DirectPoints(input: Input, r: Outcome)
    requires Paired(input) && Decode(r.cells).Some?
    requires forall q :: q in Decode(r.cells).value ==> q.Below(input.cp.Count())
  {
    var edges := Edges(input.seps);
    var valence := Collect(input.cp.cell, edges, |edges|).valence;
    && |valence| == input.cp.Count()
    && SubdividedOnce(input, Decode(r.cells).value, valence, r.points)
  }

  /** Dual mode on the paired edges. */
  function RunDual(input: Input): (r: Outcome)
    requires Paired(input) && WellDefined(input.cp, Edges(input.seps))
    ensures DualResult(input, r)
  {
    var qs := DualQuadrangulate(input.cp, Edges(input.seps));
    DecodeFlatten(qs);
    Outcome(0, Flatten(qs), [], 0)
  }

  /** Direct mode on the paired edges, followed by the post-processing. */
  function RunDirect(input: Input): (r: Outcome)
    requires Paired(input) && SlotsSuffice(input.cp.cell, Edges(input.seps))
    ensures DirectQuads(input, r) && DirectPoints(input, r)
  {
    var cp := input.cp;
    var edges := Edges(input.seps);
    var d := Quadrangulate(cp, input.mesh, input.seg, edges);
    var qs := d.batch.quads;
    QuadsBelow(cp, input.mesh, input.seg, edges, qs);
    FlatPositionsSpaced(input.seps);
    var st := PostProcess(cp, FlatPositions(input.seps), input.seps.coords, input.dist, qs, d.tally.valence);
    var r := Outcome(0, Flatten(qs), st.points, d.batch.degenerate);
    DirectQuadsHold(input, r);
    DecodeFlatten(qs);
    DirectPointsHold(input, qs, d.tally.valence, r);
    r
  }

  /** A buffer holding the direct quadrangulation, with its degenerate
      counter, meets the direct-mode promise on quadrangles. */
  lemma DirectQuadsHold(input: Input, r: Outcome)
    requires Paired(input) && SlotsSuffice(input.cp.cell, Edges(input.seps))
    requires r.status == 0
    requires r.cells == Flatten(Quadrangulate(input.cp, input.mesh, input.seg, Edges(input.seps)).batch.quads)
    requires r.degenerate == Quadrangulate(input.cp, input.mesh, input.seg, Edges(input.seps)).batch.degenerate
    ensures DirectQuads(input, r)
  {
    var edges := Edges(input.seps);
    var qs := Quadrangulate(input.cp, input.mesh, input.seg, edges).batch.quads;
    DecodeFlatten(qs);
    QuadsBelow(input.cp, input.mesh, input.seg, edges, qs);
  }

  /** The points the post-processing leaves meet the direct-mode promise
      on points. */
  lemma DirectPointsHold(input: Input, qs: seq<Quad>, valence: seq<nat>, r: Outcome)
    requires Paired(input)
    requires valence == Collect(input.cp.cell, Edges(input.seps), |Edges(input.seps)|).valence
    requires |valence| == input.cp.Count()
    requires forall q :: q in qs ==> q.Below(input.cp.Count())
    requires Decode(r.cells) == Some(qs)
    requires RangesReadable(input.seps.coords, BadRanges(input.cp, FlatPositions(input.seps), qs, valence))
    requires r.points == Samples(input.seps.coords, input.dist, Fresh({}, BadRanges(input.cp, FlatPositions(input.seps), qs, valence)))
    ensures DirectPoints(input, r)
  {
    SubdividedOnceHolds(input, qs, valence, r.points);
  }

  /** The samples of the fresh ranges of the bad sides are each such range
      once. */
  lemma SubdividedOnceHolds(input: Input, qs: seq<Quad>, valence: seq<nat>, points: seq<real>)
    requires input.cp.Valid() && input.seps.Valid() && |valence| == input.cp.Count()
    requires forall q :: q in qs ==> q.Below(input.cp.Count())
    requires RangesReadable(input.seps.coords, BadRanges(input.cp, FlatPositions(input.seps), qs, valence))
    requires points == Samples(input.seps.coords, input.dist, Fresh({}, BadRanges(input.cp, FlatPositions(input.seps), qs, valence)))
    ensures SubdividedOnce(input, qs, valence, points)
  {
    var ranges := BadRanges(input.cp, FlatPositions(input.seps), qs, valence);
    var order := Fresh({}, ranges);
    FreshBadRanges(input.cp, FlatPositions(input.seps), qs, valence);
    assert RangesReadable(input.seps.coords, order) by {
      forall k | k in order
        ensures Readable(input.seps.coords, k)
      {
        assert k in ranges;
      }
    }
  }

  /** A run: status -1 with both buffers empty when an odd number of entries
      survive the mask, otherwise status 0 and the chosen mode's result. */
  function Execute(input: Input): (r: Outcome)
    requires input.cp.Valid() && input.seps.Valid() && Supported(input)
    ensures r.status == -1 <==> |Unmasked(input.seps)| % 2 == 1
    ensures r.status == -1 ==> r.cells == [] && r.points == [] && r.degenerate == 0
    ensures r.status != -1 && input.dual ==> Paired(input) && DualResult(input, r)
    ensures r.status != -1 && !input.dual ==> Paired(input) && DirectQuads(input, r) && DirectPoints(input, r)
  {
    if |Unmasked(input.seps)| % 2 != 0 then Outcome(-1, [], [], 0)
    else if input.dual then RunDual(input)
    else RunDirect(input)
  }

  /** Every corner of a direct quadrangle is a critical point. */
  lemma QuadsBelow(cp: CriticalPoints, mesh: Mesh, seg: nat -> int, edges: seq<Edge>, qs: seq<Quad>)
    requires cp.Valid() && Shaped(SourceTable(cp.cell, edges), |cp.kind|)
    requires Accepted(SourceTable(cp.cell, edges), cp.kind, Linked(cp, mesh, seg), qs)
    ensures forall q :: q in qs ==> q.Below(cp.Count())
  {
    var table := SourceTable(cp.cell, edges);
    forall q | q in qs
      ensures q.Below(cp.Count())
    {
      assert PairQuad(table, cp.kind, Linked(cp, mesh, seg), q);
      assert q.j in table[q.i] && q.l in table[q.i];
    }
  }

  /** Every point block of direct mode is the middle sample of a range
      along a bad quadrangle. */
  lemma PointsAreMiddles(input: Input, qs: seq<Quad>, valence: seq<nat>, points: seq<real>)
    requires input.cp.Valid() && input.seps.Valid() && |valence| == input.cp.Count()
    requires forall q :: q in qs ==> q.Below(input.cp.Count())
    requires SubdividedOnce(input, qs, valence, points)
    ensures MiddlePoints(input, qs, valence, points)
  {
    var coords := input.seps.coords;
    var order := Fresh({}, BadRanges(input.cp, FlatPositions(input.seps), qs, valence));
    SamplesWhole(coords, input.dist, order);
    forall t: nat | 3 * t + 3 <= |points|
      ensures MiddlePoint(input, qs, valence, Block(points, t))
    {
      SamplesBlock(coords, input.dist, order, t);
      assert order[t] in order;
    }
  }

  /** Conversely, the middle sample of every range along a bad quadrangle
      is one of the point blocks, and there are as many blocks as such
      ranges. */
  lemma MiddlesArePoints(input: Input, qs: seq<Quad>, valence: seq<nat>, points: seq<real>)
    requires input.cp.Valid() && input.seps.Valid() && |valence| == input.cp.Count()
    requires forall q :: q in qs ==> q.Below(input.cp.Count())
    requires SubdividedOnce(input, qs, valence, points)
    ensures forall k :: AlongBad(input.cp, FlatPositions(input.seps), qs, valence, k) ==>
              Readable(input.seps.coords, k) && HasMiddle(input.seps.coords, input.dist, points, k)
    ensures |points| == 3 * |Fresh({}, BadRanges(input.cp, FlatPositions(input.seps), qs, valence))|
  {
    var coords := input.seps.coords;
    var order := Fresh({}, BadRanges(input.cp, FlatPositions(input.seps), qs, valence));
    forall k | AlongBad(input.cp, FlatPositions(input.seps), qs, valence, k)
      ensures Readable(coords, k) && HasMiddle(coords, input.dist, points, k)
    {
      SamplesCover(coords, input.dist, order, k);
    }
  }
}

=== FILE: valence.dfy ===
/** Post-processing of the direct quadrangulation: critical points that lie
    on fewer quadrangles than they have separatrices are bad, quadrangles
    with at least two bad corner slots are bad, and the four sides of every
    bad quadrangle are subdivided at their separatrix middles. */
module Valence {
  import opened Common
  import opened Middle

  /** v with entry x increased by one. */
  function Bump(v: seq<nat>, x: nat): (r: seq<nat>)
    requires x < |v|
    ensures |r| == |v|
  {
    v[x := v[x] + 1]
  }

  /** For each critical point, the number of corner slots of the
      quadrangles that hold it, counted four increments per quadrangle. */
  function QuadValence(qs: seq<Quad>, n: nat): (val: seq<nat>)
    requires forall q :: q in qs ==> q.Below(n)
    ensures |val| == n
  {
    if |qs| == 0 then seq(n, _ => 0)
    else
      var front := qs[..|qs| - 1];
      var q := qs[|qs| - 1];
      assert forall p :: p in front ==> p in qs;
      assert q in qs && q.Below(n);
      var prev := QuadValence(front, n);
      Bump(Bump(Bump(Bump(prev, q.i), q.j), q.k), q.l)
  }

  lemma BumpAt(v: seq<nat>, y: nat, x: nat)
    requires y < |v| && x < |v|
    ensures Bump(v, y)[x] == v[x] + (if x == y then 1 else 0)
  {
  }

  /** How many of the four corner slots of q hold x. */
  function Hits(q: Quad, x: nat): nat
  {
    (if x == q.i then 1 else 0) + (if x == q.j then 1 else 0)
      + (if x == q.k then 1 else 0) + (if x == q.l then 1 else 0)
  }

  /** Occurrences of x in cs, counted from the back. */
  function Occurrences(cs: seq<nat>, x: nat): nat
  {
    if |cs| == 0 then 0
    else Occurrences(cs[..|cs| - 1], x) + (if cs[|cs| - 1] == x then 1 else 0)
  }

  /** The count agrees with the multiplicity in the multiset of cs. */
  lemma {:induction false} OccurrencesCount(cs: seq<nat>, x: nat)
    ensures Occurrences(cs, x) == multiset(cs)[x]
  {
    if |cs| > 0 {
      var front := cs[..|cs| - 1];
      OccurrencesCount(front, x);
      assert cs == front + [cs[|cs| - 1]];
      assert multiset(cs) == multiset(front) + multiset{cs[|cs| - 1]};
    }
  }

  lemma {:induction false} OccurrencesAppend(a: seq<nat>, b: seq<nat>, x: nat)
    ensures Occurrences(a + b, x) == Occurrences(a, x) + Occurrences(b, x)
    decreases |b|
  {
    if |b| > 0 {
      var c := a + b;
      assert c[..|c| - 1] == a + b[..|b| - 1];
      OccurrencesAppend(a, b[..|b| - 1], x);
    } else {
      assert a + b == a;
    }
  }

  lemma CornerCount(q: Quad, x: nat)
    ensures Occurrences(q.Corners(), x) == Hits(q, x)
  {
    var cs := q.Corners();
    assert cs[..3] == [q.i, q.j, q.k];
    assert cs[..3][..2] == [q.i, q.j];
    assert cs[..3][..2][..1] == [q.i];
    assert Occurrences([q.i], x) == (if x == q.i then 1 else 0);
    assert Occurrences([q.i, q.j], x) == Occurrences([q.i], x) + (if x == q.j then 1 else 0);
    assert Occurrences([q.i, q.j, q.k], x) == Occurrences([q.i, q.j], x) + (if x == q.k then 1 else 0);
  }

  /** The last quadrangle adds one to the count of each of its corner slots. */
  lemma QuadValenceStep(qs: seq<Quad>, n: nat, x: nat)
    requires |qs| > 0 && x < n
    requires forall q :: q in qs ==> q.Below(n)
    ensures forall p :: p in qs[..|qs| - 1] ==> p.Below(n)
    ensures QuadValence(qs, n)[x] == QuadValence(qs[..|qs| - 1], n)[x] + Hits(qs[|qs| - 1], x)
  {
    var front := qs[..|qs| - 1];
    var q := qs[|qs| - 1];
    assert forall p :: p in front ==> p in qs;
    assert q in qs && q.Below(n);
    var v0 := QuadValence(front, n);
    var v1 := Bump(v0, q.i);
    var v2 := Bump(v1, q.j);
    var v3 := Bump(v2, q.k);
    BumpAt(v0, q.i, x);
    BumpAt(v1, q.j, x);
    BumpAt(v2, q.k, x);
    BumpAt(v3, q.l, x);
  }

  lemma {:induction false} QuadValenceOccurrences(qs: seq<Quad>, n: nat, x: nat)
    requires forall q :: q in qs ==> q.Below(n)
    requires x < n
    ensures QuadValence(qs, n)[x] == Occurrences(Corners(qs), x)
  {
    if |qs| == 0 {
      assert Corners(qs) == [];
    } else {
      var front := qs[..|qs| - 1];
      QuadValenceStep(qs, n, x);
      QuadValenceOccurrences(front, n, x);
      OccurrencesAppend(Corners(front), qs[|qs| - 1].Corners(), x);
      CornerCount(qs[|qs| - 1], x);
    }
  }

  /** The count of a critical point is its number of occurrences among all
      corner slots; a degenerate quadrangle (i, j, k, j) counts j twice. */
  lemma QuadValenceCounts(qs: seq<Quad>, n: nat, x: nat)
    requires forall q :: q in qs ==> q.Below(n)
    requires x < n
    ensures QuadValence(qs, n)[x] == multiset(Corners(qs))[x]
  {
    QuadValenceOccurrences(qs, n, x);
    OccurrencesCount(Corners(qs), x);
  }

  /** Critical points with fewer quadrangle slots than separatrices, in
      increasing order. */
  function BadPoints(val: seq<nat>, valence: seq<nat>): (bad: seq<nat>)
    requires |val| == |valence|
    ensures Increasing(bad)
    ensures forall x: nat :: x in bad <==> x < |val| && val[x] < valence[x]
  {
    if |val| == 0 then []
    else
      var n := |val| - 1;
      var rest := BadPoints(val[..n], valence[..n]);
      assert forall t :: 0 <= t < |rest| ==> rest[t] in rest;
      assert forall x :: 0 <= x < n ==> val[..n][x] == val[x] && valence[..n][x] == valence[x];
      if val[n] < valence[n] then rest + [n] else rest
  }

  /** Number of entries of cs found in bad. */
  function BadCount(cs: seq<nat>, bad: seq<nat>): nat
  {
    if |cs| == 0 then 0
    else BadCount(cs[..|cs| - 1], bad) + (if cs[|cs| - 1] in bad then 1 else 0)
  }

  /** The slots of cs whose entry is bad. */
  ghost function BadSlots(cs: seq<nat>, bad: seq<nat>): set<nat>
  {
    set t: nat | t < |cs| && cs[t] in bad
  }

  /** The count is the number of bad slots, so an entry repeated in two
      slots counts twice. */
  lemma {:induction false} BadCountSlots(cs: seq<nat>, bad: seq<nat>)
    ensures BadCount(cs, bad) == |BadSlots(cs, bad)|
  {
    if |cs| == 0 {
      assert BadSlots(cs, bad) == {};
    } else {
      var n := |cs| - 1;
      var front := cs[..n];
      BadCountSlots(front, bad);
      if cs[n] in bad {
        assert BadSlots(cs, bad) == BadSlots(front, bad) + {n};
      } else {
        assert BadSlots(cs, bad) == BadSlots(front, bad);
      }
    }
  }

  /** A degenerate quadrangle whose repeated saddle is bad is bad. */
  lemma DegenerateBadSaddle(q: Quad, bad: seq<nat>)
    requires q.Degenerate() && q.j in bad
    ensures BadCount(q.Corners(), bad) >= 2
  {
    BadCountSlots(q.Corners(), bad);
    assert {1, 3} <= BadSlots(q.Corners(), bad);
    assert |{1, 3}| == 2;
    SubsetSize({1, 3}, BadSlots(q.Corners(), bad));
  }

  lemma SubsetSize(a: set<nat>, b: set<nat>)
    requires a <= b
    ensures |a| <= |b|
  {
    assert b == a + (b - a);
  }

  /** Indices, in increasing order, of the first n quadrangles that have
      at least two bad corner slots. */
  function BadQuads(qs: seq<Quad>, bad: seq<nat>, n: nat): (r: seq<nat>)
    requires n <= |qs|
    ensures Increasing(r)
    ensures forall t: nat :: t in r <==> t < n && BadCount(qs[t].Corners(), bad) >= 2
  {
    if n == 0 then []
    else
      var rest := BadQuads(qs, bad, n - 1);
      assert forall t :: 0 <= t < |rest| ==> rest[t] in rest;
      if BadCount(qs[n - 1].Corners(), bad) >= 2 then rest + [n - 1] else rest
  }

  /** The sample ranges of the separatrices along the four sides of q. */
  function QuadRanges(cp: CriticalPoints, pos: seq<Position>, q: Quad): seq<(nat, nat)>
    requires cp.Valid() && q.Below(cp.Count())
  {
    Bounds(pos, cp.cell[q.j], cp.cell[q.i]) + Bounds(pos, cp.cell[q.j], cp.cell[q.k])
      + Bounds(pos, cp.cell[q.l], cp.cell[q.i]) + Bounds(pos, cp.cell[q.l], cp.cell[q.k])
  }

  /** The parts joined end to end. */
  function Concat(parts: seq<seq<(nat, nat)>>): seq<(nat, nat)>
  {
    if |parts| == 0 then [] else parts[0] + Concat(parts[1..])
  }

  /** An entry of the join is an entry of some part. */
  lemma {:induction false} ConcatMembers(parts: seq<seq<(nat, nat)>>, k: (nat, nat))
    ensures k in Concat(parts) <==> exists t :: 0 <= t < |parts| && k in parts[t]
  {
    if |parts| > 0 {
      ConcatMembers(parts[1..], k);
      if exists t :: 0 <= t < |parts| && k in parts[t] {
        var t :| 0 <= t < |parts| && k in parts[t];
        if t > 0 {
          assert parts[1..][t - 1] == parts[t];
        }
      }
    }
  }

  /** The ranges of each of the quadrangles idx, one part per quadrangle. */
  function RangesOf(cp: CriticalPoints, pos: seq<Position>, qs: seq<Quad>, idx: seq<nat>): (parts: seq<seq<(nat, nat)>>)
    requires cp.Valid() && forall q :: q in qs ==> q.Below(cp.Count())
    requires forall t :: 0 <= t < |idx| ==> idx[t] < |qs|
    ensures |parts| == |idx|
    ensures forall t :: 0 <= t < |idx| ==> qs[idx[t]].Below(cp.Count()) && parts[t] == QuadRanges(cp, pos, qs[idx[t]])
  {
    seq(|idx|, t requires 0 <= t < |idx| => assert qs[idx[t]] in qs; QuadRanges(cp, pos, qs[idx[t]]))
  }

  /** The ranges along all the given quadrangles, in order. */
  function AllRanges(cp: CriticalPoints, pos: seq<Position>, qs: seq<Quad>, idx: seq<nat>): seq<(nat, nat)>
    requires cp.Valid() && forall q :: q in qs ==> q.Below(cp.Count())
    requires forall t :: 0 <= t < |idx| ==> idx[t] < |qs|
  {
    Concat(RangesOf(cp, pos, qs, idx))
  }

  /** The ranges of the first quadrangle come first. */
  lemma AllRangesCons(cp: CriticalPoints, pos: seq<Position>, qs: seq<Quad>, idx: seq<nat>)
    requires cp.Valid() && forall q :: q in qs ==> q.Below(cp.Count())
    requires forall t :: 0 <= t < |idx| ==> idx[t] < |qs|
    requires |idx| > 0
    ensures qs[idx[0]].Below(cp.Count())
    ensures AllRanges(cp, pos, qs, idx) == QuadRanges(cp, pos, qs[idx[0]]) + AllRanges(cp, pos, qs, idx[1..])
  {
    var parts := RangesOf(cp, pos, qs, idx);
    assert parts[1..] == RangesOf(cp, pos, qs, idx[1..]);
  }

  /** The quadrangle listed at position t of idx. */
  predicate ListedAlong(cp: CriticalPoints, pos: seq<Position>, qs: seq<Quad>, idx: seq<nat>, t: int, k: (nat, nat))
    requires cp.Valid() && forall q :: q in qs ==> q.Below(cp.Count())
    requires forall u :: 0 <= u < |idx| ==> idx[u] < |qs|
  {
    0 <= t < |idx| && (assert qs[idx[t]] in qs; k in QuadRanges(cp, pos, qs[idx[t]]))
  }

  /** A range is listed exactly when it lies along one of the quadrangles. */
  lemma AllRangesMembers(cp: CriticalPoints, pos: seq<Position>, qs: seq<Quad>, idx: seq<nat>, k: (nat, nat))
    requires cp.Valid() && forall q :: q in qs ==> q.Below(cp.Count())
    requires forall t :: 0 <= t < |idx| ==> idx[t] < |qs|
    ensures k in AllRanges(cp, pos, qs, idx) <==> exists t :: ListedAlong(cp, pos, qs, idx, t, k)
  {
    var parts := RangesOf(cp, pos, qs, idx);
    ConcatMembers(parts, k);
    if exists t :: 0 <= t < |parts| && k in parts[t] {
      var t :| 0 <= t < |parts| && k in parts[t];
      assert ListedAlong(cp, pos, qs, idx, t, k);
    }
    if exists t :: ListedAlong(cp, pos, qs, idx, t, k) {
      var t :| ListedAlong(cp, pos, qs, idx, t, k);
      assert k in parts[t];
    }
  }

  /** Every range along a quadrangle reads inside the coordinates. */
  lemma QuadRangesReadable(cp: CriticalPoints, pos: seq<Position>, coords: seq<real>, q: Quad)
    requires cp.Valid() && q.Below(cp.Count()) && Spaced(pos, |coords| / 3)
    ensures forall k :: k in QuadRanges(cp, pos, q) ==> Readable(coords, k)
  {
    BoundsReadable(pos, coords, cp.cell[q.j], cp.cell[q.i]);
    BoundsReadable(pos, coords, cp.cell[q.j], cp.cell[q.k]);
    BoundsReadable(pos, coords, cp.cell[q.l], cp.cell[q.i]);
    BoundsReadable(pos, coords, cp.cell[q.l], cp.cell[q.k]);
  }

  lemma {:induction false} AllRangesReadable(cp: CriticalPoints, pos: seq<Position>, coords: seq<real>, qs: seq<Quad>, idx: seq<nat>)
    requires cp.Valid() && forall q :: q in qs ==> q.Below(cp.Count())
    requires forall t :: 0 <= t < |idx| ==> idx[t] < |qs|
    requires Spaced(pos, |coords| / 3)
    ensures forall k :: k in AllRanges(cp, pos, qs, idx) ==> Readable(coords, k)
    decreases |idx|
  {
    if |idx| > 0 {
      AllRangesCons(cp, pos, qs, idx);
      QuadRangesReadable(cp, pos, coords, qs[idx[0]]);
      AllRangesReadable(cp, pos, coords, qs, idx[1..]);
    }
  }

  /** The four sides of one bad quadrangle: separatrices j-i, j-k, l-i and
      l-k, subdivided in that order. */
  function SubdivideSides(cp: CriticalPoints, pos: seq<Position>, coords: seq<real>,
                          dist: (seq<real>, seq<real>) -> real, q: Quad, st: Middles): Middles
    requires cp.Valid() && q.Below(cp.Count()) && Spaced(pos, |coords| / 3)
  {
    var s1 := FindSeparatrixMiddle(cp, pos, coords, dist, q.j, q.i, st);
    var s2 := FindSeparatrixMiddle(cp, pos, coords, dist, q.j, q.k, s1);
    var s3 := FindSeparatrixMiddle(cp, pos, coords, dist, q.l, q.i, s2);
    FindSeparatrixMiddle(cp, pos, coords, dist, q.l, q.k, s3)
  }

  /** The four calls amount to one pass over the quadrangle's ranges. */
  lemma SubdivideSidesPass(cp: CriticalPoints, pos: seq<Position>, coords: seq<real>,
                           dist: (seq<real>, seq<real>) -> real, q: Quad, st: Middles)
    requires cp.Valid() && q.Below(cp.Count()) && Spaced(pos, |coords| / 3)
    ensures forall k :: k in QuadRanges(cp, pos, q) ==> Readable(coords, k)
    ensures SubdivideSides(cp, pos, coords, dist, q, st) == SubdivideAll(coords, dist, st, QuadRanges(cp, pos, q))
  {
    var b1 := Bounds(pos, cp.cell[q.j], cp.cell[q.i]);
    var b2 := Bounds(pos, cp.cell[q.j], cp.cell[q.k]);
    var b3 := Bounds(pos, cp.cell[q.l], cp.cell[q.i]);
    var b4 := Bounds(pos, cp.cell[q.l], cp.cell[q.k]);
    BoundsReadable(pos, coords, cp.cell[q.j], cp.cell[q.i]);
    BoundsReadable(pos, coords, cp.cell[q.j], cp.cell[q.k]);
    BoundsReadable(pos, coords, cp.cell[q.l], cp.cell[q.i]);
    BoundsReadable(pos, coords, cp.cell[q.l], cp.cell[q.k]);
    var s1 := SubdivideAll(coords, dist, st, b1);
    var s2 := SubdivideAll(coords, dist, s1, b2);
    var s3 := SubdivideAll(coords, dist, s2, b3);
    assert forall k :: k in b1 + b2 ==> Readable(coords, k);
    assert forall k :: k in b1 + b2 + b3 ==> Readable(coords, k);
    SubdivideAllAppend(coords, dist, st, b1, b2);
    SubdivideAllAppend(coords, dist, st, b1 + b2, b3);
    SubdivideAllAppend(coords, dist, st, b1 + b2 + b3, b4);
    assert QuadRanges(cp, pos, q) == b1 + b2 + b3 + b4;
  }

  /** The subdivision of the bad quadrangles idx, in order. */
  function SubdivideQuads(cp: CriticalPoints, pos: seq<Position>, coords: seq<real>,
                          dist: (seq<real>, seq<real>) -> real, qs: seq<Quad>, idx: seq<nat>, st: Middles): Middles
    requires cp.Valid() && forall q :: q in qs ==> q.Below(cp.Count())
    requires forall t :: 0 <= t < |idx| ==> idx[t] < |qs|
    requires Spaced(pos, |coords| / 3)
    decreases |idx|
  {
    if |idx| == 0 then st
    else
      var q := qs[idx[0]];
      assert q in qs;
      SubdivideQuads(cp, pos, coords, dist, qs, idx[1..], SubdivideSides(cp, pos, coords, dist, q, st))
  }

  /** Subdividing quadrangle by quadrangle is one pass over all their
      ranges. */
  lemma {:induction false} SubdivideQuadsPass(cp: CriticalPoints, pos: seq<Position>, coords: seq<real>,
                                              dist: (seq<real>, seq<real>) -> real, qs: seq<Quad>, idx: seq<nat>, st: Middles)
    requires cp.Valid() && forall q :: q in qs ==> q.Below(cp.Count())
    requires forall t :: 0 <= t < |idx| ==> idx[t] < |qs|
    requires Spaced(pos, |coords| / 3)
    ensures RangesReadable(coords, AllRanges(cp, pos, qs, idx))
    ensures SubdivideQuads(cp, pos, coords, dist, qs, idx, st) ==
            SubdivideAll(coords, dist, st, AllRanges(cp, pos, qs, idx))
    decreases |idx|
  {
    AllRangesReadable(cp, pos, coords, qs, idx);
    if |idx| > 0 {
      var q := qs[idx[0]];
      assert q in qs;
      QuadRangesReadable(cp, pos, coords, q);
      AllRangesReadable(cp, pos, coords, qs, idx[1..]);
      AllRangesCons(cp, pos, qs, idx);
      SubdivideSidesPass(cp, pos, coords, dist, q, st);
      SubdivideQuadsPass(cp, pos, coords, dist, qs, idx[1..], SubdivideSides(cp, pos, coords, dist, q, st));
      SubdivideAllAppend(coords, dist, st, QuadRanges(cp, pos, q), AllRanges(cp, pos, qs, idx[1..]));
    }
  }

  /** Quadrangle t has at least two bad corner slots and the range k lies
      along one of its sides. */
  predicate SideOfBad(cp: CriticalPoints, pos: seq<Position>, qs: seq<Quad>, bad: seq<nat>, t: int, k: (nat, nat))
    requires cp.Valid() && forall q :: q in qs ==> q.Below(cp.Count())
  {
    0 <= t < |qs| && BadCount(qs[t].Corners(), bad) >= 2 && (assert qs[t] in qs; k in QuadRanges(cp, pos, qs[t]))
  }

  /** A range is listed along the bad quadrangles exactly when it lies along
      some quadrangle with at least two bad corner slots. */
  lemma BadRangesMembers(cp: CriticalPoints, pos: seq<Position>, qs: seq<Quad>, bad: seq<nat>, k: (nat, nat))
    requires cp.Valid() && forall q :: q in qs ==> q.Below(cp.Count())
    ensures var idx := BadQuads(qs, bad, |qs|);
            (forall u :: 0 <= u < |idx| ==> idx[u] < |qs|) &&
            (k in AllRanges(cp, pos, qs, idx) <==> exists t :: SideOfBad(cp, pos, qs, bad, t, k))
  {
    var idx := BadQuads(qs, bad, |qs|);
    assert forall u :: 0 <= u < |idx| ==> idx[u] in idx;
    AllRangesMembers(cp, pos, qs, idx, k);
    if k in AllRanges(cp, pos, qs, idx) {
      var u :| ListedAlong(cp, pos, qs, idx, u, k);
      assert idx[u] in idx;
      assert SideOfBad(cp, pos, qs, bad, idx[u], k);
    }
    if exists t :: SideOfBad(cp, pos, qs, bad, t, k) {
      var t :| SideOfBad(cp, pos, qs, bad, t, k);
      assert t in idx;
      var u :| 0 <= u < |idx| && idx[u] == t;
      assert ListedAlong(cp, pos, qs, idx, u, k);
    }
  }

  /** The range k lies along a quadrangle with at least two corner slots
      held by bad critical points. */
  ghost predicate AlongBad(cp: CriticalPoints, pos: seq<Position>, qs: seq<Quad>, valence: seq<nat>, k: (nat, nat))
    requires cp.Valid() && |valence| == cp.Count()
    requires forall q :: q in qs ==> q.Below(cp.Count())
  {
    exists t :: SideOfBad(cp, pos, qs, BadPoints(QuadValence(qs, cp.Count()), valence), t, k)
  }

  /** The cache holds exactly the ranges along bad quadrangles. */
  ghost predicate CachesBad(cp: CriticalPoints, pos: seq<Position>, qs: seq<Quad>, valence: seq<nat>, cache: map<(nat, nat), nat>)
    requires cp.Valid() && |valence| == cp.Count()
    requires forall q :: q in qs ==> q.Below(cp.Count())
  {
    forall k :: k in cache <==> AlongBad(cp, pos, qs, valence, k)
  }

  /** The side ranges the post-processing visits: for every bad quadrangle
      in index order, its sides j-i, j-k, l-i and l-k, repeats included. */
  function BadRanges(cp: CriticalPoints, pos: seq<Position>, qs: seq<Quad>, valence: seq<nat>): seq<(nat, nat)>
    requires cp.Valid() && |valence| == cp.Count()
    requires forall q :: q in qs ==> q.Below(cp.Count())
  {
    var idx := BadQuads(qs, BadPoints(QuadValence(qs, cp.Count()), valence), |qs|);
    assert forall u :: 0 <= u < |idx| ==> idx[u] in idx;
    AllRanges(cp, pos, qs, idx)
  }

  /** Each range along a bad quadrangle is subdivided exactly once: the
      ranges a pass from an empty cache subdivides are exactly those along
      bad quadrangles, none repeated. */
  lemma FreshBadRanges(cp: CriticalPoints, pos: seq<Position>, qs: seq<Quad>, valence: seq<nat>)
    requires cp.Valid() && |valence| == cp.Count()
    requires forall q :: q in qs ==> q.Below(cp.Count())
    ensures Distinct(Fresh({}, BadRanges(cp, pos, qs, valence)))
    ensures forall k :: k in Fresh({}, BadRanges(cp, pos, qs, valence)) <==> AlongBad(cp, pos, qs, valence, k)
  {
    var bad := BadPoints(QuadValence(qs, cp.Count()), valence);
    forall k
      ensures k in Fresh({}, BadRanges(cp, pos, qs, valence)) <==> AlongBad(cp, pos, qs, valence, k)
    {
      BadRangesMembers(cp, pos, qs, bad, k);
    }
  }

  /** The post-processing as a whole: from the quadrangles, the valence of
      every critical point and the filtered positions, subdivide every bad
      quadrangle starting from an empty cache and no points. The points are
      the middle samples of the ranges along bad quadrangles, each range
      once, in the order the pass first meets them. */
  function PostProcess(cp: CriticalPoints, pos: seq<Position>, coords: seq<real>,
                       dist: (seq<real>, seq<real>) -> real, qs: seq<Quad>, valence: seq<nat>): (r: Middles)
    requires cp.Valid() && |valence| == cp.Count()
    requires forall q :: q in qs ==> q.Below(cp.Count())
    requires Spaced(pos, |coords| / 3)
    ensures CachesBad(cp, pos, qs, valence, r.cache)
    ensures Cached(coords, dist, r) && Balanced(r)
    ensures RangesReadable(coords, BadRanges(cp, pos, qs, valence))
    ensures r.points == Samples(coords, dist, Fresh({}, BadRanges(cp, pos, qs, valence)))
  {
    var bad := BadPoints(QuadValence(qs, cp.Count()), valence);
    var idx := BadQuads(qs, bad, |qs|);
    assert forall u :: 0 <= u < |idx| ==> idx[u] in idx;
    var empty := Middles(map[], []);
    var r := SubdivideQuads(cp, pos, coords, dist, qs, idx, empty);
    SubdivideQuadsPass(cp, pos, coords, dist, qs, idx, empty);
    SubdivideAllPoints(coords, dist, empty, AllRanges(cp, pos, qs, idx));
    EmptyMiddles(coords, dist);
    assert empty.cache.Keys == {};
    forall k
      ensures k in r.cache <==> AlongBad(cp, pos, qs, valence, k)
    {
      BadRangesMembers(cp, pos, qs, bad, k);
    }
    r
  }
}
